=== FILE: README.md ===
# PRL timesheet payroll core, in Dafny

This project models the payroll core of the PRL timesheet tools: the two Streamlit apps that read
Word timesheets and compute weekly pay.

- **appy1** (`appy1.py`):
  - `calculate_pay` pays every day record at its day multiplier, with 1.0 for weekdays. It then
    tops up every hour above a weekly threshold by `overtime - 1`. The knobs and the per-name rate
    table come from the sidebar.
  - `extract_timesheet_data` scans a document in two passes. First the body paragraphs, then the
    table cells, for a client, a site address and an employee name. It turns table rows into
    `(weekday, hours)` records, collects the dates of the rows and falls back to the file stem
    for the name.
- **the streamlined processor** (`timesheet_processor_streamlined.py`): its own
  `extract_timesheet_data`. It reads a "Print Name" from the paragraphs. It takes the client, site
  and name from the table cells and reads only dated rows. It prices four buckets of hours
  (regular, Saturday, Sunday, over 50) with the fixed `OT_RULES`.

A loaded document is modelled as `Documents.Document`: the texts of its paragraphs and, for each
table, the rows with their cell texts. The streamlined extractor is written as methods with loops
mirroring the Python loops (`ScanPrintName`, `ScanRowCells`, `ScanRows`), whose contracts relate
them to pure definitions. appy1's passes over paragraphs, cells and rows are the recursive
functions `ScanParagraphs`, `ScanCells`, `RowShifts` and `ScanDates`, built on the scans of the
`Scans` module, and its `ExtractTimesheet` method assembles the report from them. Lemmas state what
those definitions mean: first match wins, last match wins, exactly which rows give a record, how
the pay decomposes into buckets, and how the two pay rules compare. Pay, hours and rates are
`real`, so the arithmetic is exact. The code's rounding to two places is not modelled (see below).

Modules, one per file:

| module | file | contents |
|---|---|---|
| `Options` | options.dfy | `Option`, `Result` |
| `Text` | text.dfy | Python whitespace, `strip`, `in`, ASCII `lower`/`title`, `split`, `splitlines`, the label regexes `Key<skip>(.+)` with `re.IGNORECASE` |
| `Numbers` | numbers.dfy | decimal digits, `str(n)`, the `float()` forms an hour cell holds |
| `Dates` | dates.dfy | `strptime`/`strftime` with `%d.%m.%Y`, date order, earliest/latest, the date range |
| `Shifts` | shifts.dfy | the `(weekday, hours)` record and the hour sums |
| `Rates` | rates.dfy | the appy1 sidebar rate table, the streamlined fixed table, `custom_rates.get(name, default)` |
| `Documents` | documents.dfy | paragraphs, tables, rows and cells in reading order |
| `Scans` | scans.dfy | the three loop shapes the extractors use: keep the first value, collect, keep the last value |
| `AppyRules` | appy_pay.dfy | `calculate_pay` |
| `StreamlinedRules` | streamlined_pay.dfy | the four hour buckets and their price |
| `PayComparison` | pay_comparison.dfy | when the two pay rules agree, and by how much they differ |
| `AppyExtract` | appy_extract.dfy | appy1's `extract_timesheet_data` |
| `StreamlinedExtract` | streamlined_extract.dfy | the streamlined `extract_timesheet_data` |

Behaviour of the code that the lemmas make explicit:

- **The two pay rules agree at 1.5 overtime.** With appy1's knobs at Saturday 1.5, Sunday 1.75,
  threshold 50 and overtime 1.5, the two pay rules agree on every list of records. This includes
  weekend hours above 50. The streamlined regular bucket is not clamped. Above 50 hours it is
  negative and takes the over-50 hours back off at the base rate, whatever day they fell on. The
  over-50 bucket pays them at 1.5 times the base rate. So each hour above 50 nets half the base
  rate on top of its day pay, which is appy1's top-up at overtime 1.5. Clamping the bucket at
  zero would break the agreement exactly when the bucket is negative (`AgreeAtStreamlinedPolicy`).
- **They differ at appy1's initial overtime of 1.25.** The streamlined rule then pays a quarter
  of the base rate more on every hour above 50 (`DifferenceAtDefaults`). With appy1's Saturday
  at 1.5, Sunday at 1.75, threshold at 50 and a base rate that is not zero, the two agree exactly
  when the overtime knob is 1.5 or nobody worked more than 50 hours (`AgreeExactly`). With other
  day multipliers or another threshold they can differ even at overtime 1.5.
- **appy1 reads all paragraphs before any table.** A "print name" paragraph therefore beats an
  upper-case name in a table cell. Inside one cell, the last qualifying line wins.
- **appy1 has no client fallback.** It looks for the client in paragraphs only. Both programs
  test for "Client" as written, with its case, before matching the client pattern without regard
  to case.
- **appy1's date scan does not check the cell count.** It reads the first cell of every row
  without checking that one exists. A row without cells makes the whole extraction fail.
- **appy1 looks up the rate before the name fallback.** It uses the name found before the
  file-stem fallback, so a document without a name is paid at the default rate.
- **The streamlined processor looks for the client only in table cells.** It also prefers any
  upper-case cell name to the printed name.
- **The last "Print Name" paragraph wins in the streamlined processor, even a blank one.** The
  text `Print Name:  ` erases an earlier name (`BlankPrintNameErases`).
- **A date is recorded before the hours are read.** A dated row whose hour cell is a
  placeholder or unreadable still widens the date range.
- **The streamlined placeholders omit the em dash.** The list is the empty text, `-` and `–`. An
  hour cell holding `—` is still dropped, because `float` rejects it (`EmDashGivesNoRecord`).

## Model

| member | source | states |
|---|---|---|
| AppyRules.CalculatePay | appy1.py:113-145 | the rate is the custom rate for the name if there is one, else the default; the total is the sum of the records' hours; the pay is the day-weighted sum plus `(total - threshold) * rate * (overtime - 1)` exactly when the total is strictly above the threshold, and nothing more otherwise |
| AppyRules.DayPass | appy1.py:123-136 | the first-pass loop ends with the sum of all hours and the sum of `hours * rate * multiplier`, where the multiplier is chosen by the exact weekday text |
| AppyRules.DayPayByBuckets | appy1.py:127-135 | the first pass regrouped: weekday hours at the base rate, plus Saturday hours at `rate * saturday`, plus Sunday hours at `rate * sunday` |
| AppyRules.DayPayAppend | appy1.py:127-135 | records contribute independently: the first pass over two lists of records is the sum of the two |
| AppyRules.PayAtLeastBaseRate | appy1.py:113-145 | with multipliers of at least 1.0 (the sidebar minimum), a rate that is not negative and hours that are not negative, the pay is at least `rate * total hours` |
| AppyRules.EmptyTimesheet | appy1.py:123-145 | no records give no hours and no pay |
| Shifts.HoursSplit | timesheet_processor_streamlined.py:72-80 | every hour lands in exactly one of the Saturday, Sunday and weekday sums |
| Shifts.TotalHoursAppend | timesheet_processor_streamlined.py:72 | the total of two lists of records together is the sum of their totals |
| Rates.SidebarRates | appy1.py:80-106 | the sidebar rate table holds only strictly positive rates, only under the three prepopulated names or the added name, never under the empty name; a box holds its value exactly when it is positive; the added name overrides; an added name that is not prepopulated is stored exactly when it is not empty and its box is positive |
| Rates.ZeroAddedBoxUsesDefault | appy1.py:95-106 | an added name whose box is left at zero is paid the default rate |
| Rates.ZeroBoxUsesDefault | appy1.py:84-93 | a prepopulated name whose box is left at zero is paid the default rate |
| Rates.NamelessUsesDefault | appy1.py:95-106 | looking up the empty name always gives the default rate, whatever the boxes hold |
| Rates.StreamlinedRateRange | timesheet_processor_streamlined.py:10-15 | in the streamlined processor every name gets between 15.0 and 18.0 an hour, and only "Finley Mc" and "Andrew Burke" get anything but 15.0 |
| StreamlinedRules.ComputeBuckets | timesheet_processor_streamlined.py:72-77 | the weekend bucket is the Saturday bucket plus the Sunday bucket; regular, weekend and over-50 hours add up to the total; the regular bucket is the weekday hours less the over-50 hours |
| StreamlinedRules.WeekendSplit | timesheet_processor_streamlined.py:73 | the hours on "Saturday" or "Sunday" are the Saturday hours plus the Sunday hours |
| StreamlinedRules.BucketBounds | timesheet_processor_streamlined.py:74-77 | the over-50 bucket is never negative, is empty exactly when the total is at most 50 and is otherwise the excess; the regular bucket is negative exactly when the weekend and over-50 hours exceed the total |
| StreamlinedRules.PayByBuckets | timesheet_processor_streamlined.py:77-82 | the streamlined pay is weekday hours at the base rate, Saturday hours at 1.5, Sunday hours at 1.75, and above 50 hours half the base rate again on every extra hour |
| StreamlinedRules.WorkedExample | timesheet_processor_streamlined.py:72-82 | Monday 8, Tuesday 8, Saturday 10 and Sunday 6 at 15.0 give 32 hours, none over 50, and 622.5 |
| PayComparison.StreamlinedOverDayPay | timesheet_processor_streamlined.py:72-82 | the streamlined pay is appy1's first pass at multipliers 1.5/1.75, plus half the base rate on every hour above 50 |
| PayComparison.DifferenceAtFifty | appy1.py:138-143 | at day multipliers 1.5/1.75 and threshold 50 the two rules agree up to 50 hours, and above 50 the streamlined pay exceeds appy1's by `rate * (1.5 - overtime)` per extra hour |
| PayComparison.AgreeAtStreamlinedPolicy | timesheet_processor_streamlined.py:18-22 | with appy1's knobs at 1.5, 1.75, 50 and 1.5 the two rules pay the same on every list of records |
| PayComparison.AgreeExactly | appy1.py:138-143 | with day multipliers 1.5/1.75, threshold 50 and a non-zero rate, the two pays are equal if and only if the overtime multiplier is 1.5 or the total is at most 50 |
| PayComparison.AgreeWithinLimits | appy1.py:138-143 | whatever appy1's overtime knobs, the two rules agree on records totalling at most 50 hours and at most appy1's threshold |
| PayComparison.DifferenceAtDefaults | appy1.py:45-75 | at appy1's initial sidebar values the streamlined rule pays `0.25 * rate` more per hour above 50, and the same up to 50 |
| PayComparison.SaturdayOverFifty | appy1.py:127-143 | a single 60-hour Saturday at 15.0 pays 1387.5 under appy1's initial values and 1425.0 under the streamlined rule |
| Text.Strip | appy1.py:162 | `strip()` gives a contiguous piece of the text with only whitespace before and after it in the text, no whitespace at either of its own ends, and "" exactly for all-whitespace text |
| Text.StripIdempotent | appy1.py:162 | stripping twice is stripping once |
| Text.ContainsAt | appy1.py:163 | `sub in s` holds exactly when `sub` occurs at some position of `s` |
| Text.Title | appy1.py:170 | `title()` changes only the case of letters, upper-cases the first letter of every word and lower-cases the rest |
| Text.WordCount | appy1.py:169 | `len(text.split())` is 0 exactly for all-whitespace text, and at least 2 exactly when two non-whitespace characters have whitespace between them |
| Text.SplitLines | appy1.py:194 | `splitlines()` gives lines with no line boundary in them, one more than the boundaries of the text, and joining them with those boundaries in order gives the text back |
| Text.CaptureAfterKey | appy1.py:164 | after the key, a capture exists exactly when a character other than a newline follows; it is never empty and lies within one line |
| Text.CaptureValue | timesheet_processor_streamlined.py:32-34 | for both skips, after a run the skip consumes whole, `(.+)` captures exactly the line the skip cannot enter, up to the next newline |
| Text.MatchStart | appy1.py:164 | the search position is the leftmost at which the whole pattern matches, and no earlier position matches |
| Text.Search | appy1.py:164-166 | `re.search` finds a group exactly when the pattern matches at some position, and the group is never empty |
| Text.LabelValue | timesheet_processor_streamlined.py:32 | for both skips, a text that starts with the key in any ASCII case, then a run the skip consumes whole, then a one-line value the skip cannot enter, makes `re.search` return exactly that value as its group |
| Numbers.ParseDecimal | appy1.py:206 | in the modelled grammar of `float()` (sign, ASCII digits, one point), accepted text holds a digit; a run of digits reads as its value, and a leading minus negates |
| Numbers.FractionValue | appy1.py:206 | the digits after a point are worth the number they spell divided by ten once per digit |
| Numbers.ParsePointed | appy1.py:206 | the hour cell `whole.frac` reads as the whole part plus the value of the digits after the point |
| Numbers.SevenAndAHalf | appy1.py:206 | `7.5` reads as 7.5 |
| Numbers.ParseNatText | appy1.py:206 | the decimal text of a whole number reads back as that number |
| Numbers.NoDigitNoNumber | appy1.py:204-208 | in the modelled grammar, text without a digit never parses |
| Dates.ParseDate | appy1.py:217-219 | `strptime` succeeds on a prefixed text exactly when nothing follows the year and the day exists in that month and year |
| Dates.FormatParsed | appy1.py:219-225 | a date read from a cell is written back as the same text |
| Dates.ParseFormatted | appy1.py:219-225 | a written date passes the prefix test and reads back as the same date |
| Dates.Earliest | appy1.py:224-225 | the first of the sorted dates is one of the dates and not after any of them |
| Dates.Latest | appy1.py:224-225 | the last of the sorted dates is one of the dates and not before any of them |
| Dates.EarliestUnique | timesheet_processor_streamlined.py:84 | any listed date not after every other date is the earliest, so the range does not depend on row order |
| Dates.LatestUnique | timesheet_processor_streamlined.py:84 | any listed date not before every other date is the latest |
| Dates.DateRange | appy1.py:222-225 | the range is empty with no dates, and otherwise the earliest and latest date written `DD.MM.YYYY` around the separator |
| Documents.CellsSnoc | appy1.py:183-187 | the cells of one more row follow the cells of the rows before it |
| Scans.FirstNonEmptyMeaning | appy1.py:163-166 | a keep-the-first scan finds nothing exactly when no element offers a value, and otherwise finds the value of an element with none before it offering one |
| Scans.LastGivenAt | timesheet_processor_streamlined.py:30-34 | a keep-the-last scan holds the value of the last element that gives one, or its start value when none does |
| Scans.CollectMembers | appy1.py:213-221 | a collecting loop holds exactly the values the elements give, at most one each |
| Scans.CollectSkip | timesheet_processor_streamlined.py:56-65 | an element that gives nothing can be dropped without changing what is collected |
| AppyExtract.LastUpperLineWins | appy1.py:193-197 | within one cell the last line passing the upper-case name test gives the name; with none the cell offers nothing |
| AppyExtract.ScanParagraphsFirst | appy1.py:161-180 | the paragraph loop leaves each field with its start value or the first value a paragraph offers |
| AppyExtract.ScanCellsFirst | appy1.py:183-197 | the cell loop does the same for the name and the site and never touches the client |
| AppyExtract.FieldsFirstMatch | appy1.py:160-197 | the client is the first one a paragraph offers; the site is the first one offered by the paragraphs, then the cells; the name is the first a paragraph offers, else the first a cell offers |
| AppyExtract.FirstParagraphNameWins | appy1.py:168-175 | the first paragraph offering a name gives the name; no later paragraph or cell replaces it |
| AppyExtract.PrintNameLabel | appy1.py:172-175 | a stripped paragraph that starts with `print name` in any ASCII case, then separators, then a one-line value that does not start with a separator, offers the stripped value |
| AppyExtract.UpperParagraphOffers | appy1.py:168-175 | a paragraph passing the upper-case test offers its title-cased text, even when it also carries a print-name label |
| AppyExtract.UpperParagraphNonEmpty | appy1.py:168-170 | such a paragraph always offers a name |
| AppyExtract.PrintNameWhileEmpty | appy1.py:172-175 | a print-name value becomes the name when no paragraph before it offered one |
| AppyExtract.TableNameFallback | appy1.py:193-197 | the tables are consulted for the name only when no paragraph offered one |
| AppyExtract.RowShift | appy1.py:200-208 | a row gives a record exactly when it has at least five cells, a non-empty weekday cell, and an hour cell that is not empty, not a dash and reads as a number; the record holds that weekday text and that number |
| AppyExtract.RowOfShift | appy1.py:200-206 | a row written from a trimmed weekday and a whole number of hours gives that record back |
| AppyExtract.NoDigitNoRecord | appy1.py:204-208 | in the modelled grammar, an hour cell without a digit never gives a record |
| AppyExtract.ScanDates | appy1.py:212-221 | the date scan fails exactly when some row has no cells, and otherwise holds only valid dates |
| AppyExtract.ScanDatesMembers | appy1.py:213-221 | a completed date scan holds exactly the dates the rows' first cells give |
| AppyExtract.FormattedDateRow | appy1.py:216-219 | a row whose first cell is a written date contributes that date |
| AppyExtract.Stem | appy1.py:228-229 | the stem is a prefix of the file name; it is shorter exactly when the last dot is neither the first nor the last character, and then it is the name up to that dot |
| AppyExtract.StemOfExtension | appy1.py:228-229 | the stem of `base.ext`, for any non-empty `ext` without a dot (`DOCX` as well as `docx`), is `base` |
| AppyExtract.StemOfDocx | appy1.py:228-229 | the stem of `base.docx` is `base` |
| AppyExtract.ExtractTimesheet | appy1.py:147-242 | the extraction fails exactly when some table row has no cells; otherwise the report holds the fields the two scans find, the file stem as the name when none was found, the rate looked up before that fallback, `calculate_pay` on the rows' records and the range of the rows' dates |
| AppyExtract.ExtractFrom | appy1.py:210-242 | the same, for the fields already found: failure exactly for a row without cells, else every report column as above |
| AppyExtract.NamelessReportUsesDefault | appy1.py:210 | a report without a found name is paid at the default rate |
| StreamlinedExtract.PrintNameGiven | timesheet_processor_streamlined.py:31-34 | a paragraph gives a printed name exactly when it contains "Print Name" as written and the pattern matches; the value is the stripped group |
| StreamlinedExtract.NameOf | timesheet_processor_streamlined.py:49-50 | a cell offers a name exactly when its stripped text is five or more upper-case letters or whitespace without "PRL", and the name is that text title-cased |
| StreamlinedExtract.AfterCellsStep | timesheet_processor_streamlined.py:39-50 | one more cell is one more step of keeping each field's first value |
| StreamlinedExtract.ScanPrintName | timesheet_processor_streamlined.py:30-34 | the paragraph loop ends with the value of the last paragraph whose label matched |
| StreamlinedExtract.ScanRowCells | timesheet_processor_streamlined.py:39-50 | the cell loop of a row leaves each field with its value or the first value a cell offers |
| StreamlinedExtract.ReadRow | timesheet_processor_streamlined.py:52-65 | a dated row adds its date, and adds its record when the hours are readable |
| StreamlinedExtract.RowDate | timesheet_processor_streamlined.py:52-59 | a row is dated exactly when it has five cells and its stripped first cell has the date prefix and parses; the date is valid |
| StreamlinedExtract.RowShift | timesheet_processor_streamlined.py:52-65 | a row gives a record exactly when it is dated and its hour cell is not a placeholder and reads as a number; the weekday is the stripped second cell, possibly empty |
| StreamlinedExtract.RowDates | timesheet_processor_streamlined.py:56-59 | the collected dates are exactly those the rows give, all valid |
| StreamlinedExtract.ScanRows | timesheet_processor_streamlined.py:36-67 | the loop over all rows ends with each field's first offered value over all cells, every row's date and every row's record |
| StreamlinedExtract.ExtractTimesheet | timesheet_processor_streamlined.py:24-97 | client and site are the first a cell offers; the name is the first cell name, else the printed name; the rate comes from the fixed table; the range covers every dated row; hours, buckets and pay follow the four-bucket rule |
| StreamlinedExtract.UpperCellWins | timesheet_processor_streamlined.py:36-70 | the first upper-case cell names the report, whatever the paragraphs say |
| StreamlinedExtract.PrintNameFallback | timesheet_processor_streamlined.py:30-70 | with no upper-case cell, the name is the value of the last matching "Print Name" paragraph, or "" when none matches |
| StreamlinedExtract.ColonTwoSpacesCapture | timesheet_processor_streamlined.py:32 | after the label, `:` followed by two spaces captures a single space |
| StreamlinedExtract.PrintNameLine | timesheet_processor_streamlined.py:30-34 | a paragraph `Print Name` + at most one colon or hyphen and whitespace + a one-line value offers the stripped value |
| StreamlinedExtract.BlankPrintName | timesheet_processor_streamlined.py:31-34 | the paragraph `Print Name:  ` gives an empty printed name |
| StreamlinedExtract.BlankPrintNameErases | timesheet_processor_streamlined.py:30-70 | so a blank label after a filled one leaves the report without a name when no cell names it |
| StreamlinedExtract.PlaceholderRowKeepsDate | timesheet_processor_streamlined.py:56-65 | a dated row with a placeholder hour cell contributes its date but no record |
| StreamlinedExtract.EmDashGivesNoRecord | timesheet_processor_streamlined.py:60-67 | an em dash is not a placeholder, but it still gives no record |
| StreamlinedExtract.RecordsHaveDates | timesheet_processor_streamlined.py:56-65 | there are never more records than dates |
| StreamlinedExtract.FormattedDateCell | timesheet_processor_streamlined.py:52-59 | a written date in the first of five cells dates the row |
| StreamlinedExtract.WholeHoursCell | timesheet_processor_streamlined.py:60-64 | a whole number written out is not a placeholder and reads as itself |
| StreamlinedExtract.RowOfShift | timesheet_processor_streamlined.py:52-65 | a row written from a valid date, a trimmed weekday and whole hours gives that date and that record back |

## Left out

- Loading documents (`docx.Document`), Streamlit widgets, the file uploader, `process_folder`,
  the spreadsheet export and the launcher are not modelled. A document arrives as the texts of
  its paragraphs and table cells.
- Rounding to two places (`round(..., 2)`) of hours and pay in both reports is not modelled.
  Every figure is the exact `real` value before rounding, because Python's binary floating
  point is out of scope.
- Numbers.ParseDecimal: only the decimal forms an hour cell holds are covered (optional sign,
  ASCII digits, one point). Python's `float()` also accepts exponents, `inf`, `nan`,
  `infinity`, underscores between digits and non-ASCII decimal digits; here those are rejected.
- Numbers.NoDigitNoNumber: holds of the modelled grammar only. Python's `float()` reads `inf`,
  `nan` and `Infinity`, which hold no digit.
- AppyExtract.NoDigitNoRecord: holds of the modelled grammar only. In appy1 an hour cell `inf`
  or `nan` reads as a number, so such a row does give a record.
- Dates.HasDatePrefix: `\d` in the date pattern and `%d`, `%m`, `%Y` in `strptime` also accept
  non-ASCII decimal digits (Arabic-Indic digits, for example). Here only `0`-`9` count as digits.
- Text.SplitLines: every boundary character ends a line on its own, so `\r\n` gives an extra
  empty line and a final boundary gives an extra empty last line, where `splitlines()` gives
  neither, and the empty text gives one empty line where `splitlines()` gives none. The only caller looks for lines of five or more characters, which an empty line
  never is.
- Text.Title: case mapping covers the ASCII letters only. Python's Unicode case rules for
  `lower()`, `title()` and `re.IGNORECASE` are not modelled; in particular IGNORECASE also
  matches `ı` (U+0131) to `i`, `ſ` (U+017F) to `s` and the Kelvin sign (U+212A) to `k`.
- Dates.DateRange: `strftime('%Y')` is written with four digits. Platforms differ for years
  below 1000.
- The "Extracted On" column of appy1 reads the clock and is not modelled.
- appy1's file name: the caller passes the file name itself. `Path(doc_path).name` of a full
  path is not modelled, and `Stem` is applied to that name.
- The `date` field of each streamlined record is never read by the pay rules and is not kept.
- The sidebar bounds of appy1 (minimum 0.0 for rates, 1.0 for multipliers, 0 for the threshold)
  are preconditions `SidebarSettings`. Their steps and initial values are used only for
  `DifferenceAtDefaults` and `SaturdayOverFifty`.
- PayComparison: the comparison assumes appy1's day multipliers equal the streamlined 1.5 and
  1.75. For other day multipliers only `DayPayByBuckets` relates the first pass to the hour
  buckets.
- `app.py` and `prl_launcher.py` are not part of this model.

=== FILE: appy_extract.dfy ===
/** `extract_timesheet_data` of appy1 on a loaded document: the name, client and site heuristics
    over the paragraphs and table cells, the rows that become shift records, the date scan and
    the file-name fallback, followed by `calculate_pay`. */
module AppyExtract {
  import opened Options
  import opened Text
  import opened Numbers
  import opened Dates
  import opened Shifts
  import opened Rates
  import opened Documents
  import opened Scans
  import opened AppyRules

  // ---------------------------------------------------------------------------
  // What one paragraph or cell offers
  // ---------------------------------------------------------------------------

  /** The client a paragraph offers: `Client\s*[:\t\-\s]*(.+)` on the stripped text, looked for
      only when the text contains "Client". */
  function ClientOf(p: string): string {
    Labelled(Strip(p), "Client", SeparatorRun)
  }

  /** The site a paragraph or cell offers, by the same rule with "Site Address". */
  function SiteOf(p: string): string {
    Labelled(Strip(p), "Site Address", SeparatorRun)
  }

  /** The upper-case name test: the whole text is at least five upper-case letters or
      whitespace, it does not contain "PRL" and it has at least two words. */
  predicate UpperName(text: string) {
    IsUpperBlock(text) && !Contains(text, "PRL") && WordCount(text) >= 2
  }

  /** The value of a "print name" label, looked for when the lower-cased text contains it. */
  function PrintNameOf(text: string): string {
    if Contains(Lower(text), "print name") then Captured(text, "print name", SeparatorRun) else ""
  }

  /** A "print name" label line in any ASCII case, followed by separators and a one-line value
      that does not start with a separator, offers the stripped value. */
  lemma PrintNameLabel(text: string, sep: string, value: string)
    requires KeyAt(text, "print name", 0) && text[|"print name"|..] == sep + value
    requires forall k :: 0 <= k < |sep| ==> IsSeparator(sep[k])
    requires |value| > 0 && !IsSeparator(value[0])
    requires forall k :: 0 <= k < |value| ==> value[k] != '\n'
    ensures PrintNameOf(text) == Strip(value)
  {
    var key := "print name";
    assert Lower(text)[..|key|] == key;
    assert OccursAt(Lower(text), key, 0);
    ContainsAt(Lower(text), key);
    LabelValue(text, key, SeparatorRun, sep, value);
  }

  /** The name a paragraph offers: its title-cased text when it passes the upper-case name
      test, which is tried first, else its print-name value. */
  function ParagraphNameOf(p: string): string {
    var text := Strip(p);
    if UpperName(text) then Title(text) else PrintNameOf(text)
  }

  /** What one line of a cell offers: its title-cased text when it passes the upper-case name
      test. */
  function UpperLineName(line: string): Option<string> {
    if UpperName(line) then Some(Title(line)) else None
  }

  /** The inner loop over the lines of one cell: every qualifying line overwrites the name. */
  function LastUpperLine(lines: seq<string>): string {
    LastGiven("", lines, UpperLineName)
  }

  /** The last qualifying line of a cell decides its name; with none the cell offers nothing. */
  lemma LastUpperLineWins(lines: seq<string>)
    ensures (forall i :: 0 <= i < |lines| ==> !UpperName(lines[i])) ==> LastUpperLine(lines) == ""
    ensures forall i :: 0 <= i < |lines| && UpperName(lines[i]) && (forall j :: i < j < |lines| ==> !UpperName(lines[j])) ==>
              LastUpperLine(lines) == Title(lines[i])
  {
    LastGivenAt("", lines, UpperLineName);
  }

  /** The name a table cell offers: the title-cased last qualifying line of its stripped text. */
  function CellNameOf(c: string): string {
    LastUpperLine(SplitLines(Strip(c)))
  }

  // ---------------------------------------------------------------------------
  // The two scans
  // ---------------------------------------------------------------------------

  /** The three text fields while the document is read. */
  datatype Found = Found(name: string, client: string, site: string)

  /** One paragraph of the first loop: each field still empty takes what the paragraph offers. */
  function ParagraphStep(f: Found, p: string): Found {
    Found(if f.name == "" then ParagraphNameOf(p) else f.name,
          if f.client == "" then ClientOf(p) else f.client,
          if f.site == "" then SiteOf(p) else f.site)
  }

  /** The loop over `doc.paragraphs`. */
  function ScanParagraphs(f: Found, ps: seq<string>): Found {
    if |ps| == 0 then f else ParagraphStep(ScanParagraphs(f, ps[..|ps| - 1]), ps[|ps| - 1])
  }

  /** One cell of the table loop: the site and the name, when still empty, take what the cell
      offers; the client is not looked for in tables. */
  function CellStep(f: Found, c: string): Found {
    Found(if f.name == "" then CellNameOf(c) else f.name,
          f.client,
          if f.site == "" then SiteOf(c) else f.site)
  }

  /** The cells of every row of every table, in reading order. */
  function ScanCells(f: Found, cs: seq<string>): Found {
    if |cs| == 0 then f else CellStep(ScanCells(f, cs[..|cs| - 1]), cs[|cs| - 1])
  }

  /** The fields after both loops, before the file-name fallback. */
  function FoundFields(doc: Document): Found {
    ScanCells(ScanParagraphs(Found("", "", ""), doc.paragraphs), Cells(Rows(doc.tables)))
  }

  /** The paragraph loop keeps, for each field, the value it started with or else the first
      value a paragraph offers. */
  lemma {:induction false} ScanParagraphsFirst(f: Found, ps: seq<string>)
    ensures ScanParagraphs(f, ps)
            == Found(KeepOrFirst(f.name, ps, ParagraphNameOf), KeepOrFirst(f.client, ps, ClientOf),
                     KeepOrFirst(f.site, ps, SiteOf))
  {
    if |ps| > 0 {
      var init, x := ps[..|ps| - 1], ps[|ps| - 1];
      ScanParagraphsFirst(f, init);
      SplitLast(ps);
      KeepOrFirstSnoc(f.name, init, x, ParagraphNameOf);
      KeepOrFirstSnoc(f.client, init, x, ClientOf);
      KeepOrFirstSnoc(f.site, init, x, SiteOf);
    }
  }

  /** The cell loop does the same for the name and the site and leaves the client alone. */
  lemma {:induction false} ScanCellsFirst(f: Found, cs: seq<string>)
    ensures ScanCells(f, cs) == Found(KeepOrFirst(f.name, cs, CellNameOf), f.client, KeepOrFirst(f.site, cs, SiteOf))
  {
    if |cs| > 0 {
      var init, x := cs[..|cs| - 1], cs[|cs| - 1];
      ScanCellsFirst(f, init);
      SplitLast(cs);
      KeepOrFirstSnoc(f.name, init, x, CellNameOf);
      KeepOrFirstSnoc(f.site, init, x, SiteOf);
    }
  }

  /** First match wins: the client is the first one a paragraph offers; the site is the first
      one offered by the paragraphs and then the table cells; the name is the first one a
      paragraph offers, or failing that the first one a cell offers. */
  lemma FieldsFirstMatch(doc: Document)
    ensures FoundFields(doc).client == FirstNonEmpty(doc.paragraphs, ClientOf)
    ensures FoundFields(doc).site == FirstNonEmpty(doc.paragraphs + Cells(Rows(doc.tables)), SiteOf)
    ensures FoundFields(doc).name
            == KeepOrFirst(FirstNonEmpty(doc.paragraphs, ParagraphNameOf), Cells(Rows(doc.tables)), CellNameOf)
  {
    var cs := Cells(Rows(doc.tables));
    ScanParagraphsFirst(Found("", "", ""), doc.paragraphs);
    ScanCellsFirst(ScanParagraphs(Found("", "", ""), doc.paragraphs), cs);
    FirstNonEmptyAppend(doc.paragraphs, cs, SiteOf);
  }

  /** The name part of `FieldsFirstMatch`. */
  lemma FieldsName(doc: Document)
    ensures FoundFields(doc).name
            == KeepOrFirst(FirstNonEmpty(doc.paragraphs, ParagraphNameOf), Cells(Rows(doc.tables)), CellNameOf)
  {
    ScanParagraphsFirst(Found("", "", ""), doc.paragraphs);
    ScanCellsFirst(ScanParagraphs(Found("", "", ""), doc.paragraphs), Cells(Rows(doc.tables)));
  }

  /** The first paragraph offering a name gives the name, and no later paragraph or cell
      overwrites it. */
  lemma FirstParagraphNameWins(doc: Document, i: nat)
    requires i < |doc.paragraphs| && ParagraphNameOf(doc.paragraphs[i]) != ""
    requires forall j :: 0 <= j < i ==> ParagraphNameOf(doc.paragraphs[j]) == ""
    ensures FoundFields(doc).name == ParagraphNameOf(doc.paragraphs[i])
  {
    KeepOrFirstAt(doc.paragraphs, ParagraphNameOf, i, Cells(Rows(doc.tables)), CellNameOf);
    FieldsName(doc);
  }

  /** A paragraph passing the upper-case name test offers its title-cased text: that test is
      tried before the print-name label, which the same paragraph may also carry. */
  lemma UpperParagraphOffers(p: string)
    requires UpperName(Strip(p))
    ensures ParagraphNameOf(p) == Title(Strip(p))
  {
  }

  /** That text is never empty, so such a paragraph always offers a name. */
  lemma UpperParagraphNonEmpty(p: string)
    requires UpperName(Strip(p))
    ensures Title(Strip(p)) != ""
  {
    assert |Title(Strip(p))| == |Strip(p)| >= 5;
  }

  /** A print-name value is used only when no paragraph before it offered a name. */
  lemma PrintNameWhileEmpty(doc: Document, i: nat)
    requires i < |doc.paragraphs| && !UpperName(Strip(doc.paragraphs[i]))
    requires PrintNameOf(Strip(doc.paragraphs[i])) != ""
    requires forall j :: 0 <= j < i ==> ParagraphNameOf(doc.paragraphs[j]) == ""
    ensures FoundFields(doc).name == PrintNameOf(Strip(doc.paragraphs[i]))
  {
    assert ParagraphNameOf(doc.paragraphs[i]) == PrintNameOf(Strip(doc.paragraphs[i]));
    KeepOrFirstAt(doc.paragraphs, ParagraphNameOf, i, Cells(Rows(doc.tables)), CellNameOf);
    FieldsName(doc);
  }

  /** The tables are consulted for a name only when no paragraph offered one. */
  lemma TableNameFallback(doc: Document)
    requires forall j :: 0 <= j < |doc.paragraphs| ==> ParagraphNameOf(doc.paragraphs[j]) == ""
    ensures FoundFields(doc).name == FirstNonEmpty(Cells(Rows(doc.tables)), CellNameOf)
  {
    FirstNonEmptyMeaning(doc.paragraphs, ParagraphNameOf);
    FieldsName(doc);
  }

  // ---------------------------------------------------------------------------
  // Rows that become shift records
  // ---------------------------------------------------------------------------

  /** The hour cells treated as empty. */
  const Placeholders: seq<string> := ["-", "\U{2013}", "\U{2014}"]

  /** A row gives a record when it has at least five cells, its stripped fifth cell is neither
      empty nor a placeholder and reads as a number, and its stripped second cell is not empty;
      the record holds that weekday text and that number. */
  function RowShift(r: Row): (x: Option<Shift>)
    ensures x.Some? ==> |r.cells| >= 5 && Strip(r.cells[1]) != "" && Strip(r.cells[4]) !in Placeholders
    ensures x.Some? ==> x.value.weekday == Strip(r.cells[1]) && ParseDecimal(Strip(r.cells[4])) == Some(x.value.hours)
    ensures (&& |r.cells| >= 5 && Strip(r.cells[1]) != "" && Strip(r.cells[4]) !in Placeholders
             && ParseDecimal(Strip(r.cells[4])).Some?) ==> x.Some?
  {
    if |r.cells| < 5 then None
    else
      var hrs := Strip(r.cells[4]);
      var day := Strip(r.cells[1]);
      if hrs == "" || hrs in Placeholders || day == "" then None
      else
        match ParseDecimal(hrs)
        case Some(v) => Some(Shift(day, v))
        case None => None
  }

  /** The records of the rows, in row order: exactly the ones the rows give, at most one per
      row (`CollectMembers`). */
  function RowShifts(rows: seq<Row>): seq<Shift> {
    Collect(rows, RowShift)
  }

  /** A row written from a record, with a trimmed weekday text and the hours as a whole
      number, gives that record back. */
  lemma RowOfShift(c0: string, day: string, c2: string, c3: string, hours: nat, rest: seq<string>)
    requires |day| > 0 && !IsSpace(day[0]) && !IsSpace(day[|day| - 1])
    ensures RowShift(Row([c0, day, c2, c3, NatText(hours)] + rest)) == Some(Shift(day, hours as real))
  {
    var row := Row([c0, day, c2, c3, NatText(hours)] + rest);
    var h := NatText(hours);
    assert row.cells[1] == day && row.cells[4] == h;
    StripKeepsTrimmed(day);
    assert IsDigit(h[0]) && IsDigit(h[|h| - 1]);
    StripKeepsTrimmed(h);
    ParseNatText(hours);
  }

  /** In the modelled `float()` grammar, an hour cell without a digit never gives a record,
      whatever the rest of the row holds. */
  lemma NoDigitNoRecord(r: Row)
    requires |r.cells| >= 5
    requires forall k :: 0 <= k < |Strip(r.cells[4])| ==> !IsDigit(Strip(r.cells[4])[k])
    ensures RowShift(r) == None
  {
    NoDigitNoNumber(Strip(r.cells[4]));
  }

  // ---------------------------------------------------------------------------
  // The date scan
  // ---------------------------------------------------------------------------

  /** The date a row's first cell gives: a `DD.MM.YYYY` prefix on the stripped text that
      `strptime` accepts. */
  function RowDate(r: Row): Option<Date>
    requires |r.cells| > 0
  {
    var dt := Strip(r.cells[0]);
    if HasDatePrefix(dt) then ParseDate(dt) else None
  }

  /** What a row gives in the date scan, for a row that has cells. */
  function DateOfRow(r: Row): (d: Option<Date>)
    ensures d.Some? ==> Valid(d.value)
  {
    if |r.cells| == 0 then None else RowDate(r)
  }

  /** Some row has no cells at all. */
  predicate HasEmptyRow(rows: seq<Row>) {
    exists i :: 0 <= i < |rows| && |rows[i].cells| == 0
  }

  /** The second loop over every row, which reads the first cell without checking that there
      is one: a row without cells stops the extraction (`None`). Otherwise the scan holds the
      dates the rows give, in row order (`ScanDatesMembers`), all of them valid. */
  function ScanDates(rows: seq<Row>): (r: Option<seq<Date>>)
    ensures r.None? <==> HasEmptyRow(rows)
    ensures r.Some? ==> forall i :: 0 <= i < |r.value| ==> Valid(r.value[i])
  {
    if HasEmptyRow(rows) then None
    else
      CollectAll(rows, DateOfRow, Valid);
      Some(Collect(rows, DateOfRow))
  }

  /** When the scan completes it holds exactly the dates the rows' first cells give. */
  lemma ScanDatesMembers(rows: seq<Row>)
    requires ScanDates(rows).Some?
    ensures forall d :: d in ScanDates(rows).value <==>
              exists i :: 0 <= i < |rows| && |rows[i].cells| > 0 && RowDate(rows[i]) == Some(d)
  {
    CollectMembers(rows, DateOfRow);
  }

  /** A row whose first cell is a written date contributes that date. */
  lemma FormattedDateRow(d: Date, rest: seq<string>)
    requires Valid(d)
    ensures RowDate(Row([Format(d)] + rest)) == Some(d)
  {
    var f := Format(d);
    ParseFormatted(d);
    assert |f| == 10 && !IsSpace(f[0]) && !IsSpace(f[9]) by {
      assert HasDatePrefix(f);
    }
    StripKeepsTrimmed(f);
  }

  // ---------------------------------------------------------------------------
  // The file-name fallback
  // ---------------------------------------------------------------------------

  /** `name.rfind('.')`. */
  function LastDot(name: string): (r: Option<nat>)
    ensures r.Some? ==> r.value < |name| && name[r.value] == '.'
    ensures r.Some? ==> forall k :: r.value < k < |name| ==> name[k] != '.'
    ensures r.None? ==> forall k :: 0 <= k < |name| ==> name[k] != '.'
  {
    if |name| == 0 then None
    else if name[|name| - 1] == '.' then Some(|name| - 1)
    else LastDot(name[..|name| - 1])
  }

  /** `Path(name).stem`: the name less its suffix, the suffix being the last dot and what
      follows it when that dot is neither the first nor the last character. */
  function Stem(name: string): (r: string)
    ensures |r| <= |name| && r == name[..|r|]
    ensures |r| < |name| ==> 0 < |r| < |name| - 1 && name[|r|] == '.'
    ensures |r| < |name| ==> forall k :: |r| < k < |name| ==> name[k] != '.'
    ensures forall i :: 0 < i < |name| - 1 && name[i] == '.' && (forall k :: i < k < |name| ==> name[k] != '.') ==>
              r == name[..i]
  {
    match LastDot(name)
    case Some(i) => if 0 < i < |name| - 1 then name[..i] else name
    case None => name
  }

  /** Any extension without a dot, `DOCX` as well as `docx`, is removed with its dot. */
  lemma StemOfExtension(base: string, ext: string)
    requires |base| > 0 && |ext| > 0
    requires forall k :: 0 <= k < |ext| ==> ext[k] != '.'
    ensures Stem(base + "." + ext) == base
  {
    var name := base + "." + ext;
    assert name[|base|] == '.';
    assert forall k :: |base| < k < |name| ==> name[k] == ext[k - |base| - 1];
    assert name[..|base|] == base;
  }

  /** A `.docx` file's stem is its name without the extension. */
  lemma StemOfDocx(base: string)
    requires |base| > 0
    ensures Stem(base + ".docx") == base
  {
    var name := base + ".docx";
    assert name[|base|] == '.';
    var i := LastDot(name).value;
    assert forall k :: |base| < k < |name| ==> name[k] != '.' by {
      assert name[|base| + 1..] == "docx";
    }
    assert i == |base|;
    assert name[..i] == base;
  }

  // ---------------------------------------------------------------------------
  // The whole extraction
  // ---------------------------------------------------------------------------

  /** The row of the report. "Extracted On" (the clock) is not modelled. */
  datatype Report = Report(name: string, client: string, site: string, totalHours: real, rate: real,
                           pay: real, printedName: string, dateRange: string, fileName: string)

  /** The one way the extraction stops: a table row without cells in the date scan. */
  datatype ExtractError = RowWithoutCells

  /** The appy1 date range separator, an en dash. */
  const RangeSeparator: string := "\U{2013}"

  /** `extract_timesheet_data(doc_path)` on the document at `fileName`, before rounding: the
      fields the two scans find (`FoundFields`, characterised by `FieldsFirstMatch`) and the rows of
      every table, handed to `ExtractFrom`. */
  method ExtractTimesheet(settings: Settings, doc: Document, fileName: string)
    returns (r: Result<Report, ExtractError>)
    requires SidebarSettings(settings)
    ensures r.Failure? <==> HasEmptyRow(Rows(doc.tables))
    ensures r.Success? ==> ReportOf(r.value, settings, FoundFields(doc), Rows(doc.tables), fileName)
  {
    r := ExtractFrom(settings, FoundFields(doc), Rows(doc.tables), fileName);
  }

  /** What the report holds for the fields `found` and the table rows `rows`: the client and
      the site found; the name found, or the file's stem when none was; the rate looked up
      with the name found before that fallback; the total hours and the pay `calculate_pay`
      gives for the records of the rows; the range of the dates the rows give. */
  ghost predicate ReportOf(rep: Report, settings: Settings, found: Found, rows: seq<Row>, fileName: string) {
    && rep.client == found.client
    && rep.site == found.site
    && rep.name == (if found.name == "" then Stem(fileName) else found.name)
    && rep.printedName == rep.name
    && rep.rate == RateFor(settings.customRates, settings.defaultRate, found.name)
    && rep.totalHours == TotalHours(RowShifts(rows))
    && rep.pay == AppyPay(RowShifts(rows), rep.rate, settings.policy)
    && ScanDates(rows).Some?
    && rep.dateRange == DateRange(ScanDates(rows).value, RangeSeparator)
    && rep.fileName == fileName
  }

  /** With no name found, the report's rate is the default one: the sidebar never stores a
      rate under the empty name. */
  lemma NamelessReportUsesDefault(rep: Report, settings: Settings, found: Found, rows: seq<Row>, fileName: string)
    requires SidebarSettings(settings) && ReportOf(rep, settings, found, rows, fileName)
    requires found.name == ""
    ensures rep.rate == settings.defaultRate
  {
  }

  /** The extraction once the fields are found: it fails exactly when some row has no cells. */
  method ExtractFrom(settings: Settings, found: Found, rows: seq<Row>, fileName: string)
    returns (r: Result<Report, ExtractError>)
    requires SidebarSettings(settings)
    ensures r.Failure? <==> HasEmptyRow(rows)
    ensures r.Success? ==> ReportOf(r.value, settings, found, rows, fileName)
  {
    var days := RowShifts(rows);
    var dates := ScanDates(rows);
    if dates.None? {
      r := Failure(RowWithoutCells);
    } else {
      var total, pay, rate := CalculatePay(settings, found.name, days);
      var name := if found.name == "" then Stem(fileName) else found.name;
      var range := DateRange(dates.value, RangeSeparator);
      r := Success(Report(name, found.client, found.site, total, rate, pay, name, range, fileName));
    }
  }
}

=== FILE: appy_pay.dfy ===
/** `calculate_pay` of appy1: day multipliers first, then an overtime top-up on the hours above a
    weekly threshold. The sidebar settings it reads as globals are explicit parameters here. */
module AppyRules {
  import opened Shifts
  import opened Rates

  /** The four overtime knobs of the appy1 sidebar. */
  datatype Policy = Policy(saturday: real, sunday: real, threshold: nat, overtime: real)

  /** The sidebar's minimum values: the multipliers are at least 1.0 (the threshold is a whole
      number of hours, at least 0). */
  predicate SidebarPolicy(p: Policy) {
    p.saturday >= 1.0 && p.sunday >= 1.0 && p.overtime >= 1.0
  }

  /** Everything appy1 reads from the sidebar. */
  datatype Settings = Settings(defaultRate: real, customRates: map<string, real>, policy: Policy)

  /** Settings the sidebar can produce: bounded knobs and a rate table as `SidebarRates` builds
      it (positive rates only, never under the empty name). */
  predicate SidebarSettings(s: Settings) {
    && s.defaultRate >= 0.0
    && SidebarPolicy(s.policy)
    && "" !in s.customRates
    && forall k :: k in s.customRates ==> s.customRates[k] > 0.0
  }

  /** The multiplier of one record: chosen by the exact weekday text. */
  function DayMultiplier(weekday: string, p: Policy): real {
    if weekday == Saturday then p.saturday
    else if weekday == Sunday then p.sunday
    else 1.0
  }

  /** What one record adds in the first pass: `hours * rate * multiplier`. */
  function RecordPay(x: Shift, rate: real, p: Policy): real {
    if x.weekday == Saturday then x.hours * rate * p.saturday
    else if x.weekday == Sunday then x.hours * rate * p.sunday
    else x.hours * rate * 1.0
  }

  /** The first pass: the records' contributions summed in order. */
  function DayPay(s: seq<Shift>, rate: real, p: Policy): real {
    if |s| == 0 then 0.0
    else DayPay(s[..|s| - 1], rate, p) + RecordPay(s[|s| - 1], rate, p)
  }

  /** The second step: `(total - threshold) * rate * (overtime - 1)` when the total is strictly
      above the threshold, nothing otherwise. */
  function OvertimeTopUp(total: real, rate: real, p: Policy): real {
    if total > p.threshold as real then (total - p.threshold as real) * rate * (p.overtime - 1.0) else 0.0
  }

  /** appy1's pay before rounding. */
  function AppyPay(s: seq<Shift>, rate: real, p: Policy): real {
    DayPay(s, rate, p) + OvertimeTopUp(TotalHours(s), rate, p)
  }

  /** `calculate_pay(name, daily_data)` before rounding: returns the total hours, the pay and the
      rate used. The rate is the custom rate for `name` if there is one, else the default; the
      total is the sum of the records' hours; the pay is `hours * rate * m` summed over the
      records, `m` being the Saturday multiplier for the text "Saturday", the Sunday multiplier
      for "Sunday" and 1.0 for anything else, plus exactly
      `(total - threshold) * rate * (overtime - 1)` when the total is strictly above the
      threshold and nothing more otherwise. */
  method CalculatePay(settings: Settings, name: string, days: seq<Shift>)
    returns (total: real, pay: real, rate: real)
    requires SidebarSettings(settings)
    ensures rate == (if name in settings.customRates then settings.customRates[name] else settings.defaultRate)
    ensures total == TotalHours(days)
    ensures total <= settings.policy.threshold as real ==> pay == DayPay(days, rate, settings.policy)
    ensures total > settings.policy.threshold as real ==>
              pay == DayPay(days, rate, settings.policy)
                     + (total - settings.policy.threshold as real) * rate * (settings.policy.overtime - 1.0)
    ensures pay == AppyPay(days, rate, settings.policy)
  {
    var p := settings.policy;
    rate := RateFor(settings.customRates, settings.defaultRate, name);
    total, pay := DayPass(days, rate, p);
    if total > p.threshold as real {
      var excess := total - p.threshold as real;
      pay := pay + excess * rate * (p.overtime - 1.0);
    }
  }

  /** The loop of `calculate_pay`: per record, the multiplier picked by the weekday text, then
      `hours * rate * multiplier` added to the pay and the hours to the total. */
  method DayPass(days: seq<Shift>, rate: real, p: Policy) returns (total: real, pay: real)
    ensures total == TotalHours(days)
    ensures pay == DayPay(days, rate, p)
  {
    total := 0.0;
    pay := 0.0;
    var i := 0;
    while i < |days|
      invariant 0 <= i <= |days|
      invariant total == TotalHours(days[..i])
      invariant pay == DayPay(days[..i], rate, p)
    {
      var hours := days[i].hours;
      var weekday := days[i].weekday;
      var multiplier := 1.0;
      if weekday == Saturday {
        multiplier := p.saturday;
      } else if weekday == Sunday {
        multiplier := p.sunday;
      }
      RecordPayOf(days[i], rate, p, multiplier);
      PrefixStep(days, i, rate, p);
      pay := pay + hours * rate * multiplier;
      total := total + hours;
      i := i + 1;
    }
    assert days[..|days|] == days;
  }

  /** One more record of the list extends both running sums by that record. */
  lemma PrefixStep(s: seq<Shift>, i: nat, rate: real, p: Policy)
    requires i < |s|
    ensures DayPay(s[..i + 1], rate, p) == DayPay(s[..i], rate, p) + RecordPay(s[i], rate, p)
    ensures TotalHours(s[..i + 1]) == TotalHours(s[..i]) + s[i].hours
  {
    assert s[..i + 1][..i] == s[..i];
  }

  lemma RecordPayOf(x: Shift, rate: real, p: Policy, m: real)
    requires m == DayMultiplier(x.weekday, p)
    ensures x.hours * rate * m == RecordPay(x, rate, p)
  {
  }

  /** The first pass restricted to the weekday records, paid at `k` an hour. */
  function WeekdayPay(s: seq<Shift>, k: real): real {
    if |s| == 0 then 0.0
    else WeekdayPay(s[..|s| - 1], k) + (if IsWeekend(s[|s| - 1].weekday) then 0.0 else s[|s| - 1].hours * k)
  }

  /** The first pass restricted to the records of `day`, paid at `k` an hour. */
  function BucketPay(s: seq<Shift>, day: string, k: real): real {
    if |s| == 0 then 0.0
    else BucketPay(s[..|s| - 1], day, k) + (if s[|s| - 1].weekday == day then s[|s| - 1].hours * k else 0.0)
  }

  lemma RecordPayTerms(x: Shift, rate: real, p: Policy)
    ensures RecordPay(x, rate, p)
            == (if IsWeekend(x.weekday) then 0.0 else x.hours * rate)
               + (if x.weekday == Saturday then x.hours * (rate * p.saturday) else 0.0)
               + (if x.weekday == Sunday then x.hours * (rate * p.sunday) else 0.0)
  {
    assert Saturday[1] != Sunday[1];
  }

  lemma {:induction false} DayPaySplit(s: seq<Shift>, rate: real, p: Policy)
    ensures DayPay(s, rate, p) == WeekdayPay(s, rate) + BucketPay(s, Saturday, rate * p.saturday)
                                  + BucketPay(s, Sunday, rate * p.sunday)
  {
    if |s| > 0 {
      var x, s' := s[|s| - 1], s[..|s| - 1];
      DayPaySplit(s', rate, p);
      RecordPayTerms(x, rate, p);
      var w := if IsWeekend(x.weekday) then 0.0 else x.hours * rate;
      var a := if x.weekday == Saturday then x.hours * (rate * p.saturday) else 0.0;
      var b := if x.weekday == Sunday then x.hours * (rate * p.sunday) else 0.0;
      assert WeekdayPay(s, rate) == WeekdayPay(s', rate) + w;
      assert BucketPay(s, Saturday, rate * p.saturday) == BucketPay(s', Saturday, rate * p.saturday) + a;
      assert BucketPay(s, Sunday, rate * p.sunday) == BucketPay(s', Sunday, rate * p.sunday) + b;
      Regroup(DayPay(s', rate, p), WeekdayPay(s', rate), BucketPay(s', Saturday, rate * p.saturday),
              BucketPay(s', Sunday, rate * p.sunday), RecordPay(x, rate, p), w, a, b);
    }
  }

  lemma Regroup(d: real, w': real, a': real, b': real, r: real, w: real, a: real, b: real)
    requires d == w' + a' + b' && r == w + a + b
    ensures d + r == (w' + w) + (a' + a) + (b' + b)
  {
  }

  lemma Distribute(a: real, b: real, h: real, k: real, b': real)
    requires a == k * b && b' == b + h
    ensures a + h * k == k * b'
  {
  }

  lemma {:induction false} BucketScale(s: seq<Shift>, day: string, k: real)
    ensures BucketPay(s, day, k) == k * HoursOn(s, day)
  {
    if |s| > 0 {
      var x, s' := s[|s| - 1], s[..|s| - 1];
      BucketScale(s', day, k);
      if x.weekday == day {
        Distribute(BucketPay(s', day, k), HoursOn(s', day), x.hours, k, HoursOn(s, day));
      }
    }
  }

  lemma {:induction false} WeekdayScale(s: seq<Shift>, k: real)
    ensures WeekdayPay(s, k) == k * WeekdayHours(s)
  {
    if |s| > 0 {
      var x, s' := s[|s| - 1], s[..|s| - 1];
      WeekdayScale(s', k);
      if !IsWeekend(x.weekday) {
        Distribute(WeekdayPay(s', k), WeekdayHours(s'), x.hours, k, WeekdayHours(s));
      }
    }
  }

  /** The day-weighted pay grouped by bucket: weekday hours at the base rate, Saturday and
      Sunday hours at their multiplied rates. */
  lemma DayPayByBuckets(s: seq<Shift>, rate: real, p: Policy)
    ensures DayPay(s, rate, p) == rate * WeekdayHours(s) + rate * p.saturday * HoursOn(s, Saturday)
                                  + rate * p.sunday * HoursOn(s, Sunday)
  {
    DayPaySplit(s, rate, p);
    WeekdayScale(s, rate);
    BucketScale(s, Saturday, rate * p.saturday);
    BucketScale(s, Sunday, rate * p.sunday);
  }

  /** Records contribute independently: the pay of two lists of records together is the sum of
      their day-weighted pays. */
  lemma {:induction false} DayPayAppend(s: seq<Shift>, t: seq<Shift>, rate: real, p: Policy)
    ensures DayPay(s + t, rate, p) == DayPay(s, rate, p) + DayPay(t, rate, p)
    decreases |t|
  {
    if |t| == 0 {
      assert s + t == s;
    } else {
      assert (s + t)[..|s + t| - 1] == s + t[..|t| - 1];
      DayPayAppend(s, t[..|t| - 1], rate, p);
    }
  }

  /** One record, paid at its multiplier of at least 1.0, earns at least the base rate. */
  lemma RecordPayAtLeastBase(x: Shift, rate: real, p: Policy)
    requires SidebarPolicy(p) && rate >= 0.0 && x.hours >= 0.0
    ensures RecordPay(x, rate, p) >= rate * x.hours
  {
    assert x.hours * rate >= 0.0;
    if x.weekday == Saturday {
      assert x.hours * rate * p.saturday - rate * x.hours == x.hours * rate * (p.saturday - 1.0);
    } else if x.weekday == Sunday {
      assert x.hours * rate * p.sunday - rate * x.hours == x.hours * rate * (p.sunday - 1.0);
    }
  }

  lemma AddAtLeast(a: real, b: real, c: real, d: real, k: real)
    requires a >= k * b && c >= k * d
    ensures a + c >= k * (b + d)
  {
  }

  lemma {:induction false} DayPayAtLeastBase(s: seq<Shift>, rate: real, p: Policy)
    requires SidebarPolicy(p) && rate >= 0.0 && NonNegativeHours(s)
    ensures DayPay(s, rate, p) >= rate * TotalHours(s)
  {
    if |s| > 0 {
      var x, s' := s[|s| - 1], s[..|s| - 1];
      assert NonNegativeHours(s');
      DayPayAtLeastBase(s', rate, p);
      RecordPayAtLeastBase(x, rate, p);
      AddAtLeast(DayPay(s', rate, p), TotalHours(s'), RecordPay(x, rate, p), x.hours, rate);
    }
  }

  lemma ProductNonNegative(a: real, b: real, c: real)
    requires a >= 0.0 && b >= 0.0 && c >= 0.0
    ensures a * b * c >= 0.0
  {
    assert a * b >= 0.0;
  }

  /** With the sidebar's bounds and hours that are not negative, nobody is paid less than the
      base rate for every hour worked. */
  lemma PayAtLeastBaseRate(s: seq<Shift>, rate: real, p: Policy)
    requires SidebarPolicy(p) && rate >= 0.0 && NonNegativeHours(s)
    ensures AppyPay(s, rate, p) >= rate * TotalHours(s)
  {
    DayPayAtLeastBase(s, rate, p);
    var t := TotalHours(s);
    if t > p.threshold as real {
      ProductNonNegative(t - p.threshold as real, rate, p.overtime - 1.0);
    }
  }

  /** An empty timesheet: no hours and no pay. */
  lemma EmptyTimesheet(rate: real, p: Policy)
    ensures TotalHours([]) == 0.0 && AppyPay([], rate, p) == 0.0
  {
  }
}

=== FILE: dates.dfy ===
/** Calendar dates as the timesheets write them: `DD.MM.YYYY`, read with
    `datetime.strptime(text, "%d.%m.%Y")`, ordered as `datetime` orders them, and written back
    with `strftime('%d.%m.%Y')`. */
module Dates {
  import opened Options
  import opened Numbers

  datatype Date = Date(day: nat, month: nat, year: nat)

  /** The proleptic Gregorian leap-year rule `datetime` follows. */
  predicate IsLeapYear(y: nat) {
    y % 4 == 0 && (y % 100 != 0 || y % 400 == 0)
  }

  function DaysInMonth(month: nat, year: nat): (n: nat)
    requires 1 <= month <= 12
    ensures 28 <= n <= 31
  {
    if month == 2 then (if IsLeapYear(year) then 29 else 28)
    else if month == 4 || month == 6 || month == 9 || month == 11 then 30
    else 31
  }

  /** The dates a `datetime` can hold. */
  predicate Valid(d: Date) {
    && 1 <= d.year <= 9999
    && 1 <= d.month <= 12
    && 1 <= d.day <= DaysInMonth(d.month, d.year)
  }

  /** `re.match(r"\d{2}\.\d{2}\.\d{4}", s)`: `s` begins with two digits, a dot, two digits, a
      dot and four digits. */
  predicate HasDatePrefix(s: string) {
    && |s| >= 10
    && IsDigit(s[0]) && IsDigit(s[1]) && s[2] == '.'
    && IsDigit(s[3]) && IsDigit(s[4]) && s[5] == '.'
    && IsDigit(s[6]) && IsDigit(s[7]) && IsDigit(s[8]) && IsDigit(s[9])
  }

  /** The date the first ten characters spell, valid or not. */
  function Fields(s: string): Date
    requires HasDatePrefix(s)
  {
    Date(DigitValue(s[0]) * 10 + DigitValue(s[1]),
         DigitValue(s[3]) * 10 + DigitValue(s[4]),
         DigitValue(s[6]) * 1000 + DigitValue(s[7]) * 100 + DigitValue(s[8]) * 10 + DigitValue(s[9]))
  }

  /** `datetime.strptime(s, "%d.%m.%Y")` on a string that passed the prefix test: it succeeds
      exactly when nothing follows the year and the fields name a real calendar day. */
  function ParseDate(s: string): (r: Option<Date>)
    requires HasDatePrefix(s)
    ensures r.Some? <==> |s| == 10 && Valid(Fields(s))
    ensures r.Some? ==> r.value == Fields(s)
  {
    if |s| != 10 then None
    else
      var d := Fields(s);
      if Valid(d) then Some(d) else None
  }

  function Pad2(n: nat): (s: string)
    requires n < 100
    ensures |s| == 2 && AllDigits(s)
  {
    [DigitChar(n / 10), DigitChar(n % 10)]
  }

  function Pad4(n: nat): (s: string)
    requires n < 10000
    ensures |s| == 4 && AllDigits(s)
  {
    [DigitChar(n / 1000), DigitChar(n / 100 % 10), DigitChar(n / 10 % 10), DigitChar(n % 10)]
  }

  /** `strftime('%d.%m.%Y')`. */
  function Format(d: Date): (s: string)
    requires Valid(d)
    ensures |s| == 10
  {
    Pad2(d.day) + "." + Pad2(d.month) + "." + Pad4(d.year)
  }

  lemma DigitCharValue(c: char)
    requires IsDigit(c)
    ensures DigitChar(DigitValue(c)) == c
  {
  }

  lemma Pad2Of(a: nat, b: nat)
    requires a < 10 && b < 10
    ensures Pad2(a * 10 + b) == [DigitChar(a), DigitChar(b)]
  {
    assert (a * 10 + b) / 10 == a;
  }

  lemma Pad4Of(a: nat, b: nat, c: nat, d: nat)
    requires a < 10 && b < 10 && c < 10 && d < 10
    ensures Pad4(a * 1000 + b * 100 + c * 10 + d) == [DigitChar(a), DigitChar(b), DigitChar(c), DigitChar(d)]
  {
    DivBy1000(a, b * 100 + c * 10 + d);
    DivBy100(a * 10 + b, c * 10 + d);
    DivBy10(a * 100 + b * 10 + c, d);
    DivBy10(a * 10 + b, c);
    DivBy10(a, b);
  }

  lemma DivBy10(q: nat, r: nat)
    requires r < 10
    ensures (q * 10 + r) / 10 == q && (q * 10 + r) % 10 == r
  {
  }

  lemma DivBy100(q: nat, r: nat)
    requires r < 100
    ensures (q * 100 + r) / 100 == q
  {
  }

  lemma DivBy1000(q: nat, r: nat)
    requires r < 1000
    ensures (q * 1000 + r) / 1000 == q
  {
  }

  lemma Pad2Value(n: nat)
    requires n < 100
    ensures DigitValue(Pad2(n)[0]) * 10 + DigitValue(Pad2(n)[1]) == n
  {
  }

  lemma Pad4Value(n: nat)
    requires n < 10000
    ensures DigitValue(Pad4(n)[0]) * 1000 + DigitValue(Pad4(n)[1]) * 100
          + DigitValue(Pad4(n)[2]) * 10 + DigitValue(Pad4(n)[3]) == n
  {
    var p := Pad4(n);
    assert DigitValue(p[0]) == n / 1000;
    assert DigitValue(p[1]) == n / 100 % 10;
    assert DigitValue(p[2]) == n / 10 % 10;
    assert DigitValue(p[3]) == n % 10;
    assert n / 100 == n / 1000 * 10 + n / 100 % 10;
    assert n / 10 == n / 100 * 10 + n / 10 % 10;
    assert n == n / 10 * 10 + n % 10;
  }

  /** A date read from a cell is written back as the same text. */
  lemma FormatParsed(s: string)
    requires HasDatePrefix(s)
    requires ParseDate(s).Some?
    ensures Format(ParseDate(s).value) == s
  {
    var d := ParseDate(s).value;
    Pad2Of(DigitValue(s[0]), DigitValue(s[1]));
    Pad2Of(DigitValue(s[3]), DigitValue(s[4]));
    Pad4Of(DigitValue(s[6]), DigitValue(s[7]), DigitValue(s[8]), DigitValue(s[9]));
    DigitCharValue(s[0]); DigitCharValue(s[1]); DigitCharValue(s[3]); DigitCharValue(s[4]);
    DigitCharValue(s[6]); DigitCharValue(s[7]); DigitCharValue(s[8]); DigitCharValue(s[9]);
    assert Pad2(d.day) == s[..2];
    assert Pad2(d.month) == s[3..5];
    assert Pad4(d.year) == s[6..];
    assert s == s[..2] + "." + s[3..5] + "." + s[6..];
  }

  /** A written date passes the prefix test and reads back as the same date. */
  lemma ParseFormatted(d: Date)
    requires Valid(d)
    ensures HasDatePrefix(Format(d))
    ensures ParseDate(Format(d)) == Some(d)
  {
    var f := Format(d);
    var p, q, y := Pad2(d.day), Pad2(d.month), Pad4(d.year);
    assert f[0] == p[0] && f[1] == p[1] && f[3] == q[0] && f[4] == q[1];
    assert f[6] == y[0] && f[7] == y[1] && f[8] == y[2] && f[9] == y[3];
    Pad2Value(d.day);
    Pad2Value(d.month);
    Pad4Value(d.year);
    assert Fields(f) == d;
  }

  // ---------------------------------------------------------------------------
  // Order, earliest and latest
  // ---------------------------------------------------------------------------

  /** `a <= b` on `datetime` values: by year, then month, then day. */
  predicate NotAfter(a: Date, b: Date) {
    || a.year < b.year
    || (a.year == b.year && a.month < b.month)
    || (a.year == b.year && a.month == b.month && a.day <= b.day)
  }

  lemma NotAfterTotal(a: Date, b: Date)
    ensures NotAfter(a, b) || NotAfter(b, a)
    ensures NotAfter(a, b) && NotAfter(b, a) ==> a == b
  {
  }

  /** The earliest date: `sorted(dates)[0]`. */
  function Earliest(ds: seq<Date>): (r: Date)
    requires |ds| > 0
    ensures r in ds
    ensures forall i :: 0 <= i < |ds| ==> NotAfter(r, ds[i])
  {
    if |ds| == 1 then ds[0]
    else
      var m := Earliest(ds[..|ds| - 1]);
      assert forall i :: 0 <= i < |ds| - 1 ==> ds[..|ds| - 1][i] == ds[i];
      if NotAfter(m, ds[|ds| - 1]) then m else ds[|ds| - 1]
  }

  /** The latest date: `sorted(dates)[-1]`. */
  function Latest(ds: seq<Date>): (r: Date)
    requires |ds| > 0
    ensures r in ds
    ensures forall i :: 0 <= i < |ds| ==> NotAfter(ds[i], r)
  {
    if |ds| == 1 then ds[0]
    else
      var m := Latest(ds[..|ds| - 1]);
      assert forall i :: 0 <= i < |ds| - 1 ==> ds[..|ds| - 1][i] == ds[i];
      if NotAfter(ds[|ds| - 1], m) then m else ds[|ds| - 1]
  }

  /** Any date that is in the list and not after any of them is the earliest: the first
      element of the sorted list is determined whatever order the rows came in. */
  lemma EarliestUnique(ds: seq<Date>, d: Date)
    requires d in ds
    requires forall i :: 0 <= i < |ds| ==> NotAfter(d, ds[i])
    ensures Earliest(ds) == d
  {
    var e := Earliest(ds);
    var i :| 0 <= i < |ds| && ds[i] == e;
    var j :| 0 <= j < |ds| && ds[j] == d;
    NotAfterTotal(d, e);
  }

  /** Any date that is in the list and not before any of them is the latest. */
  lemma LatestUnique(ds: seq<Date>, d: Date)
    requires d in ds
    requires forall i :: 0 <= i < |ds| ==> NotAfter(ds[i], d)
    ensures Latest(ds) == d
  {
    var e := Latest(ds);
    var i :| 0 <= i < |ds| && ds[i] == e;
    var j :| 0 <= j < |ds| && ds[j] == d;
    NotAfterTotal(d, e);
  }

  /** The report's "Date Range": earliest and latest date joined by `sep`, or empty when no
      date was read. */
  function DateRange(ds: seq<Date>, sep: string): (r: string)
    requires forall i :: 0 <= i < |ds| ==> Valid(ds[i])
    ensures |ds| == 0 ==> r == ""
    ensures |ds| > 0 ==> exists i, j ::
      && 0 <= i < |ds| && 0 <= j < |ds|
      && r == Format(ds[i]) + sep + Format(ds[j])
      && (forall k :: 0 <= k < |ds| ==> NotAfter(ds[i], ds[k]) && NotAfter(ds[k], ds[j]))
  {
    if |ds| == 0 then ""
    else
      var lo := Earliest(ds);
      var hi := Latest(ds);
      Format(lo) + sep + Format(hi)
  }
}

=== FILE: documents.dfy ===
/** A Word document as the extractors see it once it is loaded: the text of each body paragraph
    and the tables, each a list of rows, each row a list of cell texts. */
module Documents {

  datatype Row = Row(cells: seq<string>)
  datatype Table = Table(rows: seq<Row>)
  datatype Document = Document(paragraphs: seq<string>, tables: seq<Table>)

  /** Every row of every table, in the order `for table in doc.tables: for row in table.rows`
      visits them. */
  function Rows(tables: seq<Table>): (r: seq<Row>)
    ensures forall t :: 0 <= t < |tables| ==> forall k :: 0 <= k < |tables[t].rows| ==> tables[t].rows[k] in r
    ensures forall x :: x in r ==> exists t :: 0 <= t < |tables| && x in tables[t].rows
  {
    if |tables| == 0 then []
    else
      var rest := Rows(tables[1..]);
      assert forall t :: 1 <= t < |tables| ==> tables[1..][t - 1] == tables[t];
      tables[0].rows + rest
  }

  /** Every cell of the rows, in the order `for row in rows: for cell in row.cells` visits them. */
  function Cells(rows: seq<Row>): (r: seq<string>)
    ensures forall k :: 0 <= k < |rows| ==> forall c :: c in rows[k].cells ==> c in r
    ensures forall c :: c in r ==> exists k :: 0 <= k < |rows| && c in rows[k].cells
  {
    if |rows| == 0 then []
    else
      var rest := Cells(rows[1..]);
      assert forall k :: 1 <= k < |rows| ==> rows[1..][k - 1] == rows[k];
      rows[0].cells + rest
  }

  /** The cells of one more row follow the cells of the rows before it. */
  lemma {:induction false} CellsSnoc(rows: seq<Row>, x: Row)
    ensures Cells(rows + [x]) == Cells(rows) + x.cells
  {
    if |rows| == 0 {
      assert (rows + [x])[1..] == [];
    } else {
      assert (rows + [x])[1..] == rows[1..] + [x];
      CellsSnoc(rows[1..], x);
    }
  }
}

=== FILE: numbers.dfy ===
/** Decimal text: the digits both extractors read, and the subset of Python's `float()`
    grammar that a timesheet's hour cells use. */
module Numbers {
  import opened Options

  /** The ASCII decimal digits; Python's `\d`, `int()` and `float()` also accept other scripts' digits. */
  predicate IsDigit(c: char) { '0' <= c <= '9' }

  predicate AllDigits(s: string) {
    forall i :: 0 <= i < |s| ==> IsDigit(s[i])
  }

  function DigitValue(c: char): (d: nat)
    requires IsDigit(c)
    ensures d < 10
  {
    c as int - '0' as int
  }

  function DigitChar(d: nat): (c: char)
    requires d < 10
    ensures IsDigit(c) && DigitValue(c) == d
  {
    ('0' as int + d) as char
  }

  function Pow10(n: nat): (p: nat)
    ensures p >= 1
  {
    if n == 0 then 1 else 10 * Pow10(n - 1)
  }

  /** The value of a run of decimal digits, most significant first. */
  function DigitsValue(s: string): (v: nat)
    requires AllDigits(s)
    ensures v < Pow10(|s|)
  {
    if |s| == 0 then 0
    else DigitsValue(s[..|s| - 1]) * 10 + DigitValue(s[|s| - 1])
  }

  /** The shortest decimal text of `n` (Python's `str(n)`). */
  function NatText(n: nat): (s: string)
    ensures |s| > 0 && AllDigits(s)
  {
    if n < 10 then [DigitChar(n)] else NatText(n / 10) + [DigitChar(n % 10)]
  }

  /** Reading back the decimal text of a number gives the number. */
  lemma {:induction false} NatTextValue(n: nat)
    ensures DigitsValue(NatText(n)) == n
  {
    if n >= 10 {
      var s := NatText(n);
      assert s[..|s| - 1] == NatText(n / 10);
      NatTextValue(n / 10);
    }
  }

  /** Length of the leading run of digits. */
  function DigitRun(s: string): (n: nat)
    ensures n <= |s| && AllDigits(s[..n])
    ensures n < |s| ==> !IsDigit(s[n])
  {
    if |s| == 0 || !IsDigit(s[0]) then 0
    else
      var n := 1 + DigitRun(s[1..]);
      assert forall i :: 1 <= i < n ==> s[..n][i] == s[1..][..n - 1][i - 1];
      n
  }

  /** The value of the digits after a decimal point: the number they spell, scaled down by one
      power of ten per digit. */
  function FractionValue(frac: string): (v: real)
    requires AllDigits(frac)
    ensures v >= 0.0
    ensures v * Pow10(|frac|) as real == DigitsValue(frac) as real
  {
    var num, den := DigitsValue(frac) as real, Pow10(|frac|) as real;
    assert den > 0.0;
    num / den
  }

  /** An unsigned decimal: `digits`, `digits.`, `digits.digits` or `.digits`. */
  function ParseUnsigned(s: string): (r: Option<real>)
    ensures r.Some? ==> exists i :: 0 <= i < |s| && IsDigit(s[i])
    ensures r.Some? ==> r.value >= 0.0
    ensures |s| > 0 && AllDigits(s) ==> r == Some(DigitsValue(s) as real)
  {
    var n := DigitRun(s);
    var whole := s[..n];
    if n == |s| then
      assert whole == s;
      if n > 0 then assert IsDigit(s[0]); Some(DigitsValue(whole) as real) else None
    else if s[n] != '.' then None
    else
      var frac := s[n + 1..];
      if !AllDigits(frac) || (n == 0 && |frac| == 0) then None
      else
        var i := if n > 0 then 0 else n + 1;
        assert IsDigit(s[i]);
        Some(DigitsValue(whole) as real + FractionValue(frac))
  }

  /** Python's `float()` on an already stripped cell, for the decimal forms an hour cell holds:
      an optional sign followed by an unsigned decimal of ASCII digits. Every accepted text holds
      a digit, and a plain run of digits reads as the number it spells. */
  function ParseDecimal(s: string): (r: Option<real>)
    ensures r.Some? ==> exists i :: 0 <= i < |s| && IsDigit(s[i])
    ensures |s| > 0 && AllDigits(s) ==> r == Some(DigitsValue(s) as real)
    ensures |s| > 0 && s[0] == '-' ==> r == (match ParseUnsigned(s[1..])
                                             case Some(v) => Some(-v)
                                             case None => None)
  {
    if |s| > 0 && (s[0] == '+' || s[0] == '-') then
      match ParseUnsigned(s[1..])
      case Some(v) =>
        assert exists i :: 0 <= i < |s[1..]| && IsDigit(s[1..][i]);
        Some(if s[0] == '-' then -v else v)
      case None => None
    else ParseUnsigned(s)
  }

  /** The usual hour cell `whole.frac` (such as `7.5`) reads as the whole part plus the value
      of the digits after the point; either part may be empty, not both. */
  lemma ParsePointed(whole: string, frac: string)
    requires AllDigits(whole) && AllDigits(frac)
    requires |whole| > 0 || |frac| > 0
    ensures ParseDecimal(whole + "." + frac)
            == Some(DigitsValue(whole) as real + FractionValue(frac))
  {
    var s := whole + "." + frac;
    UnsignedPointed(s, whole, frac);
    assert s[0] != '+' && s[0] != '-';
  }

  lemma UnsignedPointed(s: string, whole: string, frac: string)
    requires AllDigits(whole) && AllDigits(frac)
    requires |whole| > 0 || |frac| > 0
    requires s == whole + "." + frac
    ensures ParseUnsigned(s) == Some(DigitsValue(whole) as real + FractionValue(frac))
  {
    PointedSlices(whole, frac);
    UnsignedParts(s, |whole|, whole, frac);
  }

  lemma PointedSlices(whole: string, frac: string)
    requires AllDigits(whole)
    ensures var s := whole + "." + frac;
      && DigitRun(s) == |whole| && s[|whole|] == '.'
      && s[..|whole|] == whole && s[|whole| + 1..] == frac
  {
    var s := whole + "." + frac;
    assert s == whole + ("." + frac);
    DigitRunOf(whole, "." + frac);
  }

  /** `ParseUnsigned` on a digit run, a point and a digit run. */
  lemma UnsignedParts(s: string, n: nat, whole: string, frac: string)
    requires n == DigitRun(s) && n < |s| && s[n] == '.'
    requires whole == s[..n] && frac == s[n + 1..]
    requires AllDigits(frac) && (n > 0 || n + 1 < |s|)
    ensures ParseUnsigned(s) == Some(DigitsValue(whole) as real + FractionValue(frac))
  {
  }

  lemma {:induction false} DigitRunOf(digits: string, rest: string)
    requires AllDigits(digits)
    requires |rest| > 0 && !IsDigit(rest[0])
    ensures DigitRun(digits + rest) == |digits|
    decreases |digits|
  {
    if |digits| > 0 {
      assert (digits + rest)[1..] == digits[1..] + rest;
      DigitRunOf(digits[1..], rest);
    } else {
      assert digits + rest == rest;
    }
  }

  /** `7.5` reads as 7.5. */
  lemma SevenAndAHalf()
    ensures ParseDecimal("7.5") == Some(7.5)
  {
    ParsePointed("7", "5");
    assert "7" + "." + "5" == "7.5";
  }

  /** The decimal text of a whole number reads back as that number. */
  lemma ParseNatText(n: nat)
    ensures ParseDecimal(NatText(n)) == Some(n as real)
  {
    NatTextValue(n);
  }

  /** In the modelled grammar, text without a digit never parses: the empty cell and the dash
      placeholders among them. */
  lemma NoDigitNoNumber(s: string)
    requires forall i :: 0 <= i < |s| ==> !IsDigit(s[i])
    ensures ParseDecimal(s) == None
  {
  }
}

=== FILE: options.dfy ===
/** Optional values and results shared by the extractor and the pay calculators. */
module Options {

  /** A value that may be missing: a regex that found no match, a cell that did not parse. */
  datatype Option<+T> = None | Some(value: T)

  /** The outcome of work that can raise: a value, or the error that aborted it. */
  datatype Result<+T, +E> = Success(value: T) | Failure(error: E)
}

=== FILE: pay_comparison.dfy ===
/** How the two pay rules relate. appy1 pays each record at its day multiplier and then tops up
    every hour above its threshold by `overtime - 1`; the streamlined processor prices four
    buckets. The streamlined regular bucket is not clamped: above 50 hours it is negative and
    takes the over-50 hours back off at the base rate, whatever day they fell on, while the
    over-50 bucket pays them at 1.5 times the base rate. Each hour above 50 thus nets half the
    base rate on top of its day pay, which is the appy1 top-up at overtime 1.5. */
module PayComparison {
  import opened Shifts
  import opened AppyRules
  import opened StreamlinedRules

  /** The appy1 knobs that reproduce the streamlined rules. */
  const StreamlinedPolicy: Policy := Policy(1.5, 1.75, 50, 1.5)

  /** The appy1 sidebar's initial values. */
  const SidebarDefaults: Policy := Policy(1.5, 1.75, 50, 1.25)

  /** At the streamlined day multipliers appy1's first pass is weekday hours at the base rate,
      Saturday hours at 1.5 times it and Sunday hours at 1.75 times it. */
  lemma DayPayAtStreamlinedMultipliers(s: seq<Shift>, rate: real, p: Policy)
    requires p.saturday == 1.5 && p.sunday == 1.75
    ensures DayPay(s, rate, p)
            == rate * WeekdayHours(s) + rate * 1.5 * HoursOn(s, Saturday) + rate * 1.75 * HoursOn(s, Sunday)
  {
    DayPaySplit(s, rate, p);
    WeekdayScale(s, rate);
    BucketScale(s, Saturday, rate * 1.5);
    BucketScale(s, Sunday, rate * 1.75);
  }

  /** The streamlined pay is appy1's first pass at the streamlined day multipliers plus half
      the base rate on every hour above 50: the negative regular bucket takes each such hour off
      at the base rate and the over-50 bucket pays it at 1.5 times the base rate. */
  lemma StreamlinedOverDayPay(s: seq<Shift>, rate: real, p: Policy)
    requires p.saturday == 1.5 && p.sunday == 1.75
    ensures TotalHours(s) <= 50.0 ==> StreamlinedPay(s, rate) == DayPay(s, rate, p)
    ensures TotalHours(s) > 50.0 ==> StreamlinedPay(s, rate) == DayPay(s, rate, p) + rate * 0.5 * (TotalHours(s) - 50.0)
  {
    DayPayAtStreamlinedMultipliers(s, rate, p);
    PayByBuckets(s, rate);
  }

  lemma TopUpAtFifty(sp: real, ap: real, d: real, t: real, rate: real, p: Policy)
    requires p.threshold == 50
    requires ap == d + OvertimeTopUp(t, rate, p)
    requires t <= 50.0 ==> sp == d
    requires t > 50.0 ==> sp == d + rate * 0.5 * (t - 50.0)
    ensures t <= 50.0 ==> sp == ap
    ensures t > 50.0 ==> sp - ap == rate * (1.5 - p.overtime) * (t - 50.0)
  {
  }

  /** With appy1's day multipliers at the streamlined 1.5 and 1.75 and its threshold at 50, the
      two rules pay the same up to 50 hours, and above 50 the streamlined pay exceeds the appy1
      pay by `(1.5 - overtime)` times the base rate on every hour above 50, whichever day the
      hours fell on. */
  lemma DifferenceAtFifty(s: seq<Shift>, rate: real, p: Policy)
    requires p.saturday == 1.5 && p.sunday == 1.75 && p.threshold == 50
    ensures TotalHours(s) <= 50.0 ==> StreamlinedPay(s, rate) == AppyPay(s, rate, p)
    ensures TotalHours(s) > 50.0 ==>
              StreamlinedPay(s, rate) - AppyPay(s, rate, p) == rate * (1.5 - p.overtime) * (TotalHours(s) - 50.0)
  {
    StreamlinedOverDayPay(s, rate, p);
    TopUpAtFifty(StreamlinedPay(s, rate), AppyPay(s, rate, p), DayPay(s, rate, p), TotalHours(s), rate, p);
  }

  /** With appy1's knobs at 1.5, 1.75, 50 and 1.5 the two rules pay the same for every list of
      records, weekend hours above 50 included. */
  lemma AgreeAtStreamlinedPolicy(s: seq<Shift>, rate: real)
    ensures StreamlinedPay(s, rate) == AppyPay(s, rate, StreamlinedPolicy)
  {
    DifferenceAtFifty(s, rate, StreamlinedPolicy);
  }

  lemma NonZeroProduct(a: real, b: real)
    requires a != 0.0 && b != 0.0
    ensures a * b != 0.0
  {
    if a > 0.0 {
      if b > 0.0 { assert a * b > 0.0; } else { assert a * b < 0.0; }
    } else {
      if b > 0.0 { assert a * b < 0.0; } else { assert a * b > 0.0; }
    }
  }

  lemma ZeroDifference(sp: real, ap: real, rate: real, om: real, t: real)
    requires rate != 0.0
    requires t <= 50.0 ==> sp == ap
    requires t > 50.0 ==> sp - ap == rate * (1.5 - om) * (t - 50.0)
    ensures sp == ap <==> om == 1.5 || t <= 50.0
  {
    if t > 50.0 && om != 1.5 {
      NonZeroProduct(rate, 1.5 - om);
      NonZeroProduct(rate * (1.5 - om), t - 50.0);
    }
  }

  lemma AgreeExactlyAtFifty(sp: real, ap: real, d: real, t: real, rate: real, p: Policy)
    requires p.threshold == 50 && rate != 0.0
    requires ap == d + OvertimeTopUp(t, rate, p)
    requires t <= 50.0 ==> sp == d
    requires t > 50.0 ==> sp == d + rate * 0.5 * (t - 50.0)
    ensures sp == ap <==> p.overtime == 1.5 || t <= 50.0
  {
    TopUpAtFifty(sp, ap, d, t, rate, p);
    ZeroDifference(sp, ap, rate, p.overtime, t);
  }

  /** With the streamlined day multipliers and a threshold of 50, and a base rate that is not
      zero, the two rules agree exactly when appy1's overtime multiplier is 1.5 or nobody worked
      more than 50 hours. */
  lemma AgreeExactly(s: seq<Shift>, rate: real, p: Policy)
    requires p.saturday == 1.5 && p.sunday == 1.75 && p.threshold == 50 && rate != 0.0
    ensures StreamlinedPay(s, rate) == AppyPay(s, rate, p) <==> p.overtime == 1.5 || TotalHours(s) <= 50.0
  {
    StreamlinedOverDayPay(s, rate, p);
    AgreeExactlyAtFifty(StreamlinedPay(s, rate), AppyPay(s, rate, p), DayPay(s, rate, p), TotalHours(s), rate, p);
  }

  lemma NoTopUp(sp: real, ap: real, d: real, t: real, rate: real, p: Policy)
    requires t <= p.threshold as real && sp == d && ap == d + OvertimeTopUp(t, rate, p)
    ensures sp == ap
  {
  }

  /** Whatever appy1's overtime knobs, at the streamlined day multipliers the two rules agree on
      any list of at most 50 hours that does not exceed appy1's threshold either. */
  lemma AgreeWithinLimits(s: seq<Shift>, rate: real, p: Policy)
    requires p.saturday == 1.5 && p.sunday == 1.75
    requires TotalHours(s) <= 50.0 && TotalHours(s) <= p.threshold as real
    ensures StreamlinedPay(s, rate) == AppyPay(s, rate, p)
  {
    StreamlinedOverDayPay(s, rate, p);
    NoTopUp(StreamlinedPay(s, rate), AppyPay(s, rate, p), DayPay(s, rate, p), TotalHours(s), rate, p);
  }

  lemma TopUpAtDefaults(sp: real, ap: real, d: real, t: real, rate: real, p: Policy)
    requires p.threshold == 50 && p.overtime == 1.25
    requires ap == d + OvertimeTopUp(t, rate, p)
    requires t <= 50.0 ==> sp == d
    requires t > 50.0 ==> sp == d + rate * 0.5 * (t - 50.0)
    ensures t <= 50.0 ==> sp == ap
    ensures t > 50.0 ==> sp - ap == rate * 0.25 * (t - 50.0)
  {
  }

  /** At appy1's initial sidebar values the streamlined rule pays a quarter of the base rate
      more on every hour above 50, whichever day it fell on, and the same up to 50 hours. */
  lemma DifferenceAtDefaults(s: seq<Shift>, rate: real)
    ensures TotalHours(s) <= 50.0 ==> StreamlinedPay(s, rate) == AppyPay(s, rate, SidebarDefaults)
    ensures TotalHours(s) > 50.0 ==>
              StreamlinedPay(s, rate) - AppyPay(s, rate, SidebarDefaults) == rate * 0.25 * (TotalHours(s) - 50.0)
  {
    StreamlinedOverDayPay(s, rate, SidebarDefaults);
    TopUpAtDefaults(StreamlinedPay(s, rate), AppyPay(s, rate, SidebarDefaults), DayPay(s, rate, SidebarDefaults),
                    TotalHours(s), rate, SidebarDefaults);
  }

  /** One 60-hour Saturday at 15.0 an hour: appy1 at its initial values pays
      60 * 15 * 1.5 + 10 * 15 * 0.25 = 1387.5, the streamlined rule pays
      -10 * 15 + 60 * 15 * 1.5 + 10 * 15 * 1.5 = 1425. */
  lemma SaturdayOverFifty()
    ensures AppyPay([Shift(Saturday, 60.0)], 15.0, SidebarDefaults) == 1387.5
    ensures StreamlinedPay([Shift(Saturday, 60.0)], 15.0) == 1425.0
  {
    var s := [Shift(Saturday, 60.0)];
    assert s[..0] == [];
    assert Saturday[1] != Sunday[1];
    assert TotalHours(s) == 60.0 && HoursOn(s, Saturday) == 60.0 && HoursOn(s, Sunday) == 0.0;
    assert WeekendHours(s) == 60.0;
    assert DayPay(s, 15.0, SidebarDefaults) == 1350.0;
  }
}

=== FILE: rates.dfy ===
/** Hourly rates: the per-name table the appy1 sidebar builds, the fixed table of the streamlined
    processor, and the lookup both use. */
module Rates {

  /** `custom_rates.get(name, default_rate)`. */
  function RateFor(custom: map<string, real>, defaultRate: real, name: string): real {
    if name in custom then custom[name] else defaultRate
  }

  /** The names the appy1 sidebar offers a rate box for. */
  const PrepopulatedNames: seq<string> := ["Aaron Hall", "Finley Mc", "Andrew Burke"]

  /** Stores `rate` under `name` only when it is strictly positive. */
  function AddIfPositive(m: map<string, real>, name: string, rate: real): map<string, real> {
    if rate > 0.0 then m[name := rate] else m
  }

  /** The `custom_rates` table of appy1: each prepopulated name's box value (`values`, in the
      order of `PrepopulatedNames`), then the optional added name and its box value. Every box
      has a minimum of 0.0, and a name is stored only with a strictly positive rate, so a zero
      box means "use the default". An empty added name is ignored. */
  function SidebarRates(values: seq<real>, newName: string, newRate: real): (m: map<string, real>)
    requires |values| == |PrepopulatedNames|
    requires forall i :: 0 <= i < |values| ==> values[i] >= 0.0
    requires newRate >= 0.0
    ensures forall k :: k in m ==> m[k] > 0.0
    ensures forall k :: k in m ==> k in PrepopulatedNames || k == newName
    ensures "" !in m
    ensures newName != "" && newRate > 0.0 ==> newName in m && m[newName] == newRate
    ensures newName !in PrepopulatedNames ==> (newName in m <==> newName != "" && newRate > 0.0)
    ensures forall i :: 0 <= i < |values| && !(PrepopulatedNames[i] == newName && newRate > 0.0) ==>
              (PrepopulatedNames[i] in m <==> values[i] > 0.0)
              && (PrepopulatedNames[i] in m ==> m[PrepopulatedNames[i]] == values[i])
  {
    var m0 := map[];
    var m1 := AddIfPositive(m0, PrepopulatedNames[0], values[0]);
    var m2 := AddIfPositive(m1, PrepopulatedNames[1], values[1]);
    var m3 := AddIfPositive(m2, PrepopulatedNames[2], values[2]);
    if newName != "" then AddIfPositive(m3, newName, newRate) else m3
  }

  /** With the sidebar's table, a rate box left at zero (and not overridden by the added name)
      falls back to the default rate. */
  lemma ZeroBoxUsesDefault(values: seq<real>, newName: string, newRate: real, defaultRate: real, i: nat)
    requires |values| == |PrepopulatedNames|
    requires forall k :: 0 <= k < |values| ==> values[k] >= 0.0
    requires newRate >= 0.0
    requires i < |values| && values[i] == 0.0
    requires !(PrepopulatedNames[i] == newName && newRate > 0.0)
    ensures RateFor(SidebarRates(values, newName, newRate), defaultRate, PrepopulatedNames[i]) == defaultRate
  {
  }

  /** An added name whose box is left at zero is not stored, so it is paid the default rate. */
  lemma ZeroAddedBoxUsesDefault(values: seq<real>, newName: string, defaultRate: real)
    requires |values| == |PrepopulatedNames|
    requires forall k :: 0 <= k < |values| ==> values[k] >= 0.0
    requires newName !in PrepopulatedNames
    ensures RateFor(SidebarRates(values, newName, 0.0), defaultRate, newName) == defaultRate
  {
  }

  /** With the sidebar's table, looking up the empty name (what appy1 does when no name was
      found) always gives the default rate, whatever rates were entered. */
  lemma NamelessUsesDefault(values: seq<real>, newName: string, newRate: real, defaultRate: real)
    requires |values| == |PrepopulatedNames|
    requires forall k :: 0 <= k < |values| ==> values[k] >= 0.0
    requires newRate >= 0.0
    ensures RateFor(SidebarRates(values, newName, newRate), defaultRate, "") == defaultRate
  {
  }

  /** The fixed `custom_rates` table of the streamlined processor. */
  const StreamlinedRates: map<string, real> := map["Aaron Hall" := 15.0, "Finley Mc" := 18.0, "Andrew Burke" := 16.5]

  /** The streamlined processor's `default_rate`. */
  const StreamlinedDefaultRate: real := 15.0

  /** In the streamlined processor every name gets a rate from 15.0 to 18.0, and only the two
      names listed above 15.0 ("Finley Mc" and "Andrew Burke") get anything but 15.0. */
  lemma StreamlinedRateRange(name: string)
    ensures 15.0 <= RateFor(StreamlinedRates, StreamlinedDefaultRate, name) <= 18.0
    ensures name !in {"Finley Mc", "Andrew Burke"} ==> RateFor(StreamlinedRates, StreamlinedDefaultRate, name) == 15.0
  {
  }
}

=== FILE: scans.dfy ===
/** The loop shapes the extractors are built from: a field that keeps the first value found,
    a list that collects what each element gives, and a field that every match overwrites. */
module Scans {
  import opened Options

  /** A non-empty list is its front followed by its last element. */
  lemma SplitLast<T>(xs: seq<T>)
    requires |xs| > 0
    ensures xs == xs[..|xs| - 1] + [xs[|xs| - 1]]
  {
  }

  /** The first `i + 1` elements are the first `i` followed by element `i`. */
  lemma TakeSnoc<T>(xs: seq<T>, i: nat)
    requires i < |xs|
    ensures xs[..i + 1] == xs[..i] + [xs[i]]
  {
  }

  // ---------------------------------------------------------------------------
  // Keep the first value: `if not field: field = value`
  // ---------------------------------------------------------------------------


  /** The first non-empty value `f` gives along `xs`, or "" when it gives none. */
  function FirstNonEmpty<T>(xs: seq<T>, f: T -> string): string {
    if |xs| == 0 then ""
    else if f(xs[0]) != "" then f(xs[0])
    else FirstNonEmpty(xs[1..], f)
  }

  /** The scan finds nothing exactly when no element offers a value, and otherwise finds the
      value of an element with none before it offering one. */
  lemma {:induction false} FirstNonEmptyMeaning<T>(xs: seq<T>, f: T -> string)
    ensures FirstNonEmpty(xs, f) == "" <==> forall i :: 0 <= i < |xs| ==> f(xs[i]) == ""
    ensures FirstNonEmpty(xs, f) != "" ==>
              exists i :: 0 <= i < |xs| && f(xs[i]) == FirstNonEmpty(xs, f) && forall j :: 0 <= j < i ==> f(xs[j]) == ""
  {
    if |xs| > 0 && f(xs[0]) == "" {
      var r := FirstNonEmpty(xs[1..], f);
      FirstNonEmptyMeaning(xs[1..], f);
      assert forall i :: 1 <= i < |xs| ==> xs[1..][i - 1] == xs[i];
      if r != "" {
        var i :| 0 <= i < |xs[1..]| && f(xs[1..][i]) == r && forall j :: 0 <= j < i ==> f(xs[1..][j]) == "";
        assert f(xs[i + 1]) == r && forall j :: 0 <= j < i + 1 ==> f(xs[j]) == "";
      }
    }
  }

  /** A field that already holds `acc` keeps it; an empty one takes the first value found. */
  function KeepOrFirst<T>(acc: string, xs: seq<T>, f: T -> string): string {
    if acc != "" then acc else FirstNonEmpty(xs, f)
  }

  /** Scanning `xs` and then `ys` finds what scanning `xs + ys` finds. */
  lemma {:induction false} FirstNonEmptyAppend<T>(xs: seq<T>, ys: seq<T>, f: T -> string)
    ensures FirstNonEmpty(xs + ys, f) == KeepOrFirst(FirstNonEmpty(xs, f), ys, f)
    decreases |xs|
  {
    if |xs| == 0 {
      assert xs + ys == ys;
    } else {
      assert (xs + ys)[0] == xs[0];
      assert (xs + ys)[1..] == xs[1..] + ys;
      FirstNonEmptyAppend(xs[1..], ys, f);
    }
  }

  /** One more element: a field still empty after `xs` takes that element's value. */
  lemma KeepOrFirstSnoc<T>(acc: string, xs: seq<T>, x: T, f: T -> string)
    ensures KeepOrFirst(acc, xs + [x], f) == (var b := KeepOrFirst(acc, xs, f); if b != "" then b else f(x))
  {
    FirstNonEmptyAppend(xs, [x], f);
    assert [x][1..] == [];
    assert FirstNonEmpty([x], f) == f(x);
  }

  /** A loop step over `xs[j]`: the field after `j + 1` elements is the field after `j`, or,
      while that is still empty, what element `j` offers. */
  lemma KeepOrFirstStep<T>(acc: string, xs: seq<T>, j: nat, f: T -> string)
    requires j < |xs|
    ensures KeepOrFirst(acc, xs[..j + 1], f)
            == (var b := KeepOrFirst(acc, xs[..j], f); if b != "" then b else f(xs[j]))
  {
    TakeSnoc(xs, j);
    KeepOrFirstSnoc(acc, xs[..j], xs[j], f);
  }

  /** The value at the first position that gives one is the value found. */
  lemma FirstNonEmptyAt<T>(xs: seq<T>, f: T -> string, i: nat)
    requires i < |xs| && f(xs[i]) != ""
    requires forall j :: 0 <= j < i ==> f(xs[j]) == ""
    ensures FirstNonEmpty(xs, f) == f(xs[i])
  {
    FirstNonEmptyMeaning(xs, f);
    var r := FirstNonEmpty(xs, f);
    var k :| 0 <= k < |xs| && f(xs[k]) == r && forall j :: 0 <= j < k ==> f(xs[j]) == "";
  }

  /** When the first value along `xs` is at position `i`, a later scan of `ys` never replaces
      it. */
  lemma KeepOrFirstAt<T>(xs: seq<T>, f: T -> string, i: nat, ys: seq<T>, g: T -> string)
    requires i < |xs| && f(xs[i]) != ""
    requires forall j :: 0 <= j < i ==> f(xs[j]) == ""
    ensures KeepOrFirst(FirstNonEmpty(xs, f), ys, g) == f(xs[i])
  {
    FirstNonEmptyAt(xs, f, i);
  }

  // ---------------------------------------------------------------------------
  // Collect: `for x in xs: if <x gives v>: out.append(v)`
  // ---------------------------------------------------------------------------

  /** What the elements give, in order. */
  function Collect<T, U>(xs: seq<T>, f: T -> Option<U>): seq<U> {
    if |xs| == 0 then []
    else
      match f(xs[|xs| - 1])
      case Some(v) => Collect(xs[..|xs| - 1], f) + [v]
      case None => Collect(xs[..|xs| - 1], f)
  }

  /** The collected values are exactly the values the elements give, at most one each. */
  lemma {:induction false} CollectMembers<T, U>(xs: seq<T>, f: T -> Option<U>)
    ensures |Collect(xs, f)| <= |xs|
    ensures forall v :: v in Collect(xs, f) <==> exists i :: 0 <= i < |xs| && f(xs[i]) == Some(v)
  {
    if |xs| > 0 {
      var init := xs[..|xs| - 1];
      CollectMembers(init, f);
      assert forall i :: 0 <= i < |xs| - 1 ==> init[i] == xs[i];
    }
  }

  /** A property every given value has is shared by every collected value. */
  lemma {:induction false} CollectAll<T, U>(xs: seq<T>, f: T -> Option<U>, p: U -> bool)
    requires forall i :: 0 <= i < |xs| && f(xs[i]).Some? ==> p(f(xs[i]).value)
    ensures forall j :: 0 <= j < |Collect(xs, f)| ==> p(Collect(xs, f)[j])
  {
    if |xs| > 0 {
      var init := xs[..|xs| - 1];
      assert forall i :: 0 <= i < |init| ==> init[i] == xs[i];
      CollectAll(init, f, p);
    }
  }

  /** Collecting over two lists one after the other collects over their concatenation. */
  lemma {:induction false} CollectAppend<T, U>(xs: seq<T>, ys: seq<T>, f: T -> Option<U>)
    ensures Collect(xs + ys, f) == Collect(xs, f) + Collect(ys, f)
    decreases |ys|
  {
    if |ys| == 0 {
      assert xs + ys == xs;
    } else {
      var init := ys[..|ys| - 1];
      assert (xs + ys)[..|xs + ys| - 1] == xs + init;
      assert (xs + ys)[|xs + ys| - 1] == ys[|ys| - 1];
      CollectAppend(xs, init, f);
    }
  }

  /** One more element adds its value, if it gives one, at the end. */
  lemma CollectSnoc<T, U>(xs: seq<T>, x: T, f: T -> Option<U>)
    ensures Collect(xs + [x], f) == Collect(xs, f) + (if f(x).Some? then [f(x).value] else [])
  {
    assert (xs + [x])[..|xs|] == xs;
  }

  /** A loop step over `xs[k]`: the list after `k + 1` elements is the list after `k`, extended
      by what element `k` gives. */
  lemma CollectStep<T, U>(xs: seq<T>, k: nat, f: T -> Option<U>)
    requires k < |xs|
    ensures Collect(xs[..k + 1], f) == Collect(xs[..k], f) + (if f(xs[k]).Some? then [f(xs[k]).value] else [])
  {
    TakeSnoc(xs, k);
    CollectSnoc(xs[..k], xs[k], f);
  }

  /** The same step, stated as the update a loop makes to the list it has collected. */
  lemma CollectNext<T, U>(xs: seq<T>, k: nat, acc: seq<U>, f: T -> Option<U>)
    requires k < |xs| && acc == Collect(xs[..k], f)
    ensures Collect(xs[..k + 1], f) == (if f(xs[k]).Some? then acc + [f(xs[k]).value] else acc)
  {
    CollectStep(xs, k, f);
  }

  /** An element that gives nothing can be dropped without changing what is collected. */
  lemma CollectSkip<T, U>(xs: seq<T>, k: nat, f: T -> Option<U>)
    requires k < |xs| && f(xs[k]).None?
    ensures Collect(xs, f) == Collect(xs[..k] + xs[k + 1..], f)
  {
    assert xs == xs[..k] + [xs[k]] + xs[k + 1..];
    CollectAppend(xs[..k] + [xs[k]], xs[k + 1..], f);
    CollectAppend(xs[..k], [xs[k]], f);
    CollectAppend(xs[..k], xs[k + 1..], f);
    assert [xs[k]][..0] == [];
  }

  /** When every element that gives an `f` value also gives a `g` value, `f` collects no more
      values than `g`. */
  lemma {:induction false} CollectFewer<T, U, V>(xs: seq<T>, f: T -> Option<U>, g: T -> Option<V>)
    requires forall i :: 0 <= i < |xs| && f(xs[i]).Some? ==> g(xs[i]).Some?
    ensures |Collect(xs, f)| <= |Collect(xs, g)|
  {
    if |xs| > 0 {
      var init := xs[..|xs| - 1];
      assert forall i :: 0 <= i < |init| ==> init[i] == xs[i];
      CollectFewer(init, f, g);
    }
  }

  // ---------------------------------------------------------------------------
  // Keep the last value: `for x in xs: if <x gives v>: field = v`
  // ---------------------------------------------------------------------------

  /** The value of the last element that gives one, or `acc` when none does. */
  function LastGiven<T, U>(acc: U, xs: seq<T>, f: T -> Option<U>): U {
    if |xs| == 0 then acc
    else
      match f(xs[|xs| - 1])
      case Some(v) => v
      case None => LastGiven(acc, xs[..|xs| - 1], f)
  }

  /** The last element that gives a value decides the field; with none, it keeps `acc`. */
  lemma {:induction false} LastGivenAt<T, U>(acc: U, xs: seq<T>, f: T -> Option<U>)
    ensures (forall i :: 0 <= i < |xs| ==> f(xs[i]).None?) ==> LastGiven(acc, xs, f) == acc
    ensures forall i :: 0 <= i < |xs| && f(xs[i]).Some? && (forall j :: i < j < |xs| ==> f(xs[j]).None?) ==>
              LastGiven(acc, xs, f) == f(xs[i]).value
  {
    if |xs| > 0 {
      var init, x := xs[..|xs| - 1], xs[|xs| - 1];
      LastGivenAt(acc, init, f);
      assert forall i :: 0 <= i < |init| ==> init[i] == xs[i];
      if f(x).None? {
        assert LastGiven(acc, xs, f) == LastGiven(acc, init, f);
      } else {
        assert LastGiven(acc, xs, f) == f(x).value;
      }
    }
  }

  /** One more element overwrites the field when it gives a value. */
  lemma LastGivenSnoc<T, U>(acc: U, xs: seq<T>, x: T, f: T -> Option<U>)
    ensures LastGiven(acc, xs + [x], f) == (if f(x).Some? then f(x).value else LastGiven(acc, xs, f))
  {
    assert (xs + [x])[..|xs|] == xs;
  }

  /** A loop step over `xs[i]`: the field after `i + 1` elements is what element `i` gives, or
      the field after `i` when it gives nothing. */
  lemma LastGivenStep<T, U>(acc: U, xs: seq<T>, i: nat, f: T -> Option<U>)
    requires i < |xs|
    ensures LastGiven(acc, xs[..i + 1], f) == (if f(xs[i]).Some? then f(xs[i]).value else LastGiven(acc, xs[..i], f))
  {
    TakeSnoc(xs, i);
    LastGivenSnoc(acc, xs[..i], xs[i], f);
  }
}

=== FILE: shifts.dfy ===
/** Shift records (one per day row of a timesheet) and the hour sums both pay calculators use. */
module Shifts {

  /** One day's work: the weekday text of the row (as written, after stripping) and its hours. */
  datatype Shift = Shift(weekday: string, hours: real)

  const Saturday: string := "Saturday"
  const Sunday: string := "Sunday"

  /** The day multipliers apply to these two exact spellings and to nothing else. */
  predicate IsWeekend(weekday: string) {
    weekday == Saturday || weekday == Sunday
  }

  predicate NonNegativeHours(s: seq<Shift>) {
    forall i :: 0 <= i < |s| ==> s[i].hours >= 0.0
  }

  /** `sum(d['hours'] for d in daily_data)`. */
  function TotalHours(s: seq<Shift>): real {
    if |s| == 0 then 0.0 else TotalHours(s[..|s| - 1]) + s[|s| - 1].hours
  }

  /** One record's hours if its weekday text is exactly `day`, else nothing. */
  function Part(x: Shift, day: string): real {
    if x.weekday == day then x.hours else 0.0
  }

  /** One record's hours if it falls on neither weekend day, else nothing. */
  function WeekdayPart(x: Shift): real {
    if IsWeekend(x.weekday) then 0.0 else x.hours
  }

  /** Hours of the records whose weekday text is exactly `day`. */
  function HoursOn(s: seq<Shift>, day: string): real {
    if |s| == 0 then 0.0 else HoursOn(s[..|s| - 1], day) + Part(s[|s| - 1], day)
  }

  /** Hours of the records on any day other than Saturday and Sunday. */
  function WeekdayHours(s: seq<Shift>): real {
    if |s| == 0 then 0.0 else WeekdayHours(s[..|s| - 1]) + WeekdayPart(s[|s| - 1])
  }

  /** Every record's hours land in exactly one of the Saturday, Sunday and weekday sums. */
  lemma {:induction false} HoursSplit(s: seq<Shift>)
    ensures TotalHours(s) == HoursOn(s, Saturday) + HoursOn(s, Sunday) + WeekdayHours(s)
  {
    if |s| > 0 {
      HoursSplit(s[..|s| - 1]);
    }
  }

  /** The total of a concatenation is the sum of the totals. */
  lemma {:induction false} TotalHoursAppend(s: seq<Shift>, t: seq<Shift>)
    ensures TotalHours(s + t) == TotalHours(s) + TotalHours(t)
    decreases |t|
  {
    if |t| == 0 {
      assert s + t == s;
    } else {
      assert (s + t)[..|s + t| - 1] == s + t[..|t| - 1];
      TotalHoursAppend(s, t[..|t| - 1]);
    }
  }
}

=== FILE: streamlined_extract.dfy ===
/** `extract_timesheet_data` of the streamlined processor on a loaded document: the "Print Name"
    paragraphs, the client, site and name heuristics over the table cells, the dated rows, and
    the four-bucket pay. */
module StreamlinedExtract {
  import opened Options
  import opened Text
  import opened Numbers
  import opened Dates
  import opened Shifts
  import opened Rates
  import opened Documents
  import opened Scans
  import opened StreamlinedRules

  // ---------------------------------------------------------------------------
  // What one paragraph or cell offers
  // ---------------------------------------------------------------------------

  /** The value of a paragraph's "Print Name" label: looked for only when the unstripped text
      contains "Print Name" as written, read with `Print Name[:\-]?\s*(.+)` ignoring case, and
      stripped, so it can be empty. */
  function PrintNameGiven(p: string): (r: Option<string>)
    ensures r.Some? <==> Contains(p, "Print Name") && Search(p, "Print Name", MarkThenSpaces).Some?
    ensures r.Some? ==> r.value == Strip(Search(p, "Print Name", MarkThenSpaces).value)
  {
    if Contains(p, "Print Name") then
      match Search(p, "Print Name", MarkThenSpaces)
      case Some(v) => Some(Strip(v))
      case None => None
    else None
  }

  /** A paragraph that starts with "Print Name" as written, then at most one colon or hyphen
      and whitespace, then a one-line value offers the stripped value. */
  lemma PrintNameLine(p: string, sep: string, value: string)
    requires p == "Print Name" + sep + value
    requires SkipAccepts(MarkThenSpaces, sep)
    requires |value| > 0 && SkipStopsAt(MarkThenSpaces, sep, value[0])
    requires forall k :: 0 <= k < |value| ==> value[k] != '\n'
    ensures PrintNameGiven(p) == Some(Strip(value))
  {
    var key := "Print Name";
    assert OccursAt(p, key, 0);
    ContainsAt(p, key);
    assert KeyAt(p, key, 0);
    assert p[|key|..] == sep + value;
    LabelValue(p, key, MarkThenSpaces, sep, value);
  }

  /** The paragraph loop: every paragraph whose label matches overwrites the printed name. */
  function PrintedName(paragraphs: seq<string>): string {
    LastGiven("", paragraphs, PrintNameGiven)
  }

  /** The client a cell offers: `Client[:\-]?\s*(.+)` on the stripped text, looked for only when
      the text contains "Client". */
  function ClientOf(c: string): string {
    Labelled(Strip(c), "Client", MarkThenSpaces)
  }

  /** The site a cell offers, by the same rule with "Site Address". */
  function SiteOf(c: string): string {
    Labelled(Strip(c), "Site Address", MarkThenSpaces)
  }

  /** The name a cell offers: its title-cased stripped text when that is at least five
      upper-case letters or whitespace and does not contain "PRL". */
  function NameOf(c: string): (r: string)
    ensures r != "" <==> IsUpperBlock(Strip(c)) && !Contains(Strip(c), "PRL")
    ensures r != "" ==> r == Title(Strip(c))
  {
    var txt := Strip(c);
    if IsUpperBlock(txt) && !Contains(txt, "PRL") then Title(txt) else ""
  }

  /** The three fields the cell loop fills. */
  datatype Found = Found(name: string, client: string, site: string)

  /** The fields after the cells `cs`, starting from `f`: each field keeps its value or takes
      the first value a cell offers. */
  function AfterCells(f: Found, cs: seq<string>): Found {
    Found(KeepOrFirst(f.name, cs, NameOf), KeepOrFirst(f.client, cs, ClientOf), KeepOrFirst(f.site, cs, SiteOf))
  }

  /** One cell of the loop: each field still empty takes what the cell offers. */
  function CellStep(g: Found, c: string): Found {
    Found(if g.name == "" then NameOf(c) else g.name,
          if g.client == "" then ClientOf(c) else g.client,
          if g.site == "" then SiteOf(c) else g.site)
  }

  /** Taking one more cell is one more loop step. */
  lemma AfterCellsStep(f: Found, cells: seq<string>, j: nat)
    requires j < |cells|
    ensures AfterCells(f, cells[..j + 1]) == CellStep(AfterCells(f, cells[..j]), cells[j])
  {
    KeepOrFirstStep(f.name, cells, j, NameOf);
    KeepOrFirstStep(f.client, cells, j, ClientOf);
    KeepOrFirstStep(f.site, cells, j, SiteOf);
  }

  /** The report's name: the name found in the cells, else the printed name. */
  function ReportName(doc: Document): string {
    var cellName := FirstNonEmpty(Cells(Rows(doc.tables)), NameOf);
    if cellName == "" then PrintedName(doc.paragraphs) else cellName
  }

  // ---------------------------------------------------------------------------
  // Rows with dates and hours
  // ---------------------------------------------------------------------------

  /** The hour cells treated as empty: the empty text, a hyphen and an en dash. */
  const HourPlaceholders: seq<string> := ["", "-", "\U{2013}"]

  /** The date a row gives: a row of at least five cells whose stripped first cell starts with
      `DD.MM.YYYY` and which `strptime` then accepts whole. */
  function RowDate(r: Row): (d: Option<Date>)
    ensures d.Some? ==> |r.cells| >= 5 && HasDatePrefix(Strip(r.cells[0])) && Valid(d.value)
    ensures d.Some? ==> ParseDate(Strip(r.cells[0])) == d
    ensures |r.cells| >= 5 && HasDatePrefix(Strip(r.cells[0])) && ParseDate(Strip(r.cells[0])).Some? ==> d.Some?
  {
    if |r.cells| < 5 then None
    else
      var dateText := Strip(r.cells[0]);
      if HasDatePrefix(dateText) then ParseDate(dateText) else None
  }

  /** The record a row gives: a dated row whose stripped fifth cell is not a placeholder and
      reads as a number; the weekday text is the stripped second cell, possibly empty. */
  function RowShift(r: Row): (x: Option<Shift>)
    ensures x.Some? ==> RowDate(r).Some? && Strip(r.cells[4]) !in HourPlaceholders
    ensures x.Some? ==> x.value.weekday == Strip(r.cells[1]) && ParseDecimal(Strip(r.cells[4])) == Some(x.value.hours)
    ensures (&& RowDate(r).Some? && Strip(r.cells[4]) !in HourPlaceholders
             && ParseDecimal(Strip(r.cells[4])).Some?) ==> x.Some?
  {
    if RowDate(r).None? then None
    else
      var hrs := Strip(r.cells[4]);
      if hrs in HourPlaceholders then None
      else
        match ParseDecimal(hrs)
        case Some(v) => Some(Shift(Strip(r.cells[1]), v))
        case None => None
  }

  // ---------------------------------------------------------------------------
  // The whole extraction
  // ---------------------------------------------------------------------------

  /** The row of the report, before rounding. */
  datatype Report = Report(name: string, client: string, site: string, dateRange: string, totalHours: real,
                           rate: real, over50: real, saturday: real, sunday: real, pay: real)

  /** The streamlined date range separator: an en dash between spaces. */
  const RangeSeparator: string := " \U{2013} "

  /** The paragraph loop of `extract_timesheet_data`. */
  method ScanPrintName(paragraphs: seq<string>) returns (printed: string)
    ensures printed == PrintedName(paragraphs)
  {
    printed := "";
    var i := 0;
    while i < |paragraphs|
      invariant 0 <= i <= |paragraphs|
      invariant printed == LastGiven("", paragraphs[..i], PrintNameGiven)
    {
      var given := PrintNameGiven(paragraphs[i]);
      LastGivenStep("", paragraphs, i, PrintNameGiven);
      if given.Some? {
        printed := given.value;
      }
      i := i + 1;
    }
    assert paragraphs[..|paragraphs|] == paragraphs;
  }

  /** The cell loop of one row: each field still empty takes what the cell offers. */
  method ScanRowCells(f: Found, cells: seq<string>) returns (g: Found)
    ensures g == AfterCells(f, cells)
  {
    g := f;
    var j := 0;
    while j < |cells|
      invariant 0 <= j <= |cells|
      invariant g == AfterCells(f, cells[..j])
    {
      AfterCellsStep(f, cells, j);
      g := CellStep(g, cells[j]);
      j := j + 1;
    }
    assert cells[..|cells|] == cells;
  }

  /** The date and record reading of row `k`: a dated row adds its date, and a dated row with
      readable hours adds its record too. */
  method ReadRow(rows: seq<Row>, k: nat, dates: seq<Date>, days: seq<Shift>)
    returns (dates': seq<Date>, days': seq<Shift>)
    requires k < |rows| && dates == Collect(rows[..k], RowDate) && days == Collect(rows[..k], RowShift)
    ensures dates' == Collect(rows[..k + 1], RowDate) && days' == Collect(rows[..k + 1], RowShift)
  {
    var date := RowDate(rows[k]);
    var shift := RowShift(rows[k]);
    CollectNext(rows, k, dates, RowDate);
    CollectNext(rows, k, days, RowShift);
    dates' := if date.Some? then dates + [date.value] else dates;
    days' := if shift.Some? then days + [shift.value] else days;
  }

  /** The fields, dates and records after the loop over the rows, with the cells of the rows
      already seen. */
  lemma RowStep(rows: seq<Row>, k: nat, seen: seq<string>, f: Found, g: Found)
    requires k < |rows| && seen == Cells(rows[..k])
    requires f == AfterCells(Found("", "", ""), seen)
    requires g == AfterCells(f, rows[k].cells)
    ensures seen + rows[k].cells == Cells(rows[..k + 1])
    ensures g == AfterCells(Found("", "", ""), seen + rows[k].cells)
  {
    TakeSnoc(rows, k);
    CellsSnoc(rows[..k], rows[k]);
    FirstNonEmptyAppend(seen, rows[k].cells, NameOf);
    FirstNonEmptyAppend(seen, rows[k].cells, ClientOf);
    FirstNonEmptyAppend(seen, rows[k].cells, SiteOf);
  }

  /** The dates of the rows, in row order: exactly the ones the rows give, all valid. */
  function RowDates(rows: seq<Row>): (ds: seq<Date>)
    ensures forall d :: d in ds <==> exists k :: 0 <= k < |rows| && RowDate(rows[k]) == Some(d)
    ensures forall i :: 0 <= i < |ds| ==> Valid(ds[i])
  {
    CollectMembers(rows, RowDate);
    var ds := Collect(rows, RowDate);
    assert forall i :: 0 <= i < |ds| ==> ds[i] in ds;
    ds
  }

  /** `extract_timesheet_data(doc_file)` before rounding. The client and site are the first ones
      a table cell offers; the name is the first one a cell offers, or else the value of the
      last "Print Name" paragraph; the rate is that name's entry in the fixed table or 15.0.
      The dates are those of every dated row, in row order, including rows whose hours are
      missing or unreadable; the records are those of the dated rows with readable hours. The
      hour buckets and the pay are the four-bucket rule on those records, and the date range
      joins the earliest and latest date, or is empty. */
  method ExtractTimesheet(doc: Document) returns (r: Report)
    ensures var rows := Rows(doc.tables);
            var days := Collect(rows, RowShift);
            var b := ComputeBuckets(days);
            && r.client == FirstNonEmpty(Cells(rows), ClientOf)
            && r.site == FirstNonEmpty(Cells(rows), SiteOf)
            && r.name == ReportName(doc)
            && r.rate == RateFor(StreamlinedRates, StreamlinedDefaultRate, r.name)
            && r.dateRange == DateRange(RowDates(rows), RangeSeparator)
            && r.totalHours == TotalHours(days)
            && r.over50 == b.over50 && r.saturday == b.saturday && r.sunday == b.sunday
            && r.pay == StreamlinedPay(days, r.rate)
  {
    var printed := ScanPrintName(doc.paragraphs);
    var rows := Rows(doc.tables);
    var found, dates, days := ScanRows(rows);
    var name := if found.name == "" then printed else found.name;
    var rate := RateFor(StreamlinedRates, StreamlinedDefaultRate, name);
    var b := ComputeBuckets(days);
    var pay := Price(b, rate);
    var range := DateRange(dates, RangeSeparator);
    r := Report(name, found.client, found.site, range, b.total, rate, b.over50, b.saturday, b.sunday, pay);
  }

  /** The loop over every row of every table: the cells of the row feed the three fields, then
      a dated row adds its date and, with readable hours, its record. */
  method ScanRows(rows: seq<Row>) returns (found: Found, dates: seq<Date>, days: seq<Shift>)
    ensures found == AfterCells(Found("", "", ""), Cells(rows))
    ensures dates == RowDates(rows)
    ensures days == Collect(rows, RowShift)
  {
    found := Found("", "", "");
    dates, days := [], [];
    ghost var seen: seq<string> := [];
    var k := 0;
    while k < |rows|
      invariant 0 <= k <= |rows|
      invariant seen == Cells(rows[..k])
      invariant found == AfterCells(Found("", "", ""), seen)
      invariant dates == Collect(rows[..k], RowDate)
      invariant days == Collect(rows[..k], RowShift)
    {
      var row := rows[k];
      var g := ScanRowCells(found, row.cells);
      RowStep(rows, k, seen, found, g);
      found, seen := g, seen + row.cells;
      dates, days := ReadRow(rows, k, dates, days);
      k := k + 1;
    }
    assert rows[..|rows|] == rows;
  }

  // ---------------------------------------------------------------------------
  // Properties
  // ---------------------------------------------------------------------------

  /** The first cell passing the upper-case test names the report, whatever the paragraphs
      say: a cell name beats any "Print Name" value. */
  lemma UpperCellWins(doc: Document, i: nat)
    requires i < |Cells(Rows(doc.tables))|
    requires var c := Cells(Rows(doc.tables))[i]; IsUpperBlock(Strip(c)) && !Contains(Strip(c), "PRL")
    requires forall j :: 0 <= j < i ==> NameOf(Cells(Rows(doc.tables))[j]) == ""
    ensures ReportName(doc) == Title(Strip(Cells(Rows(doc.tables))[i]))
  {
    var cs := Cells(Rows(doc.tables));
    assert NameOf(cs[i]) != "";
    FirstNonEmptyAt(cs, NameOf, i);
  }

  /** With no cell passing the upper-case test, the report takes the value of the last
      paragraph whose "Print Name" label matches, even an empty one; with no such paragraph
      the name stays empty. */
  lemma PrintNameFallback(doc: Document)
    requires forall j :: 0 <= j < |Cells(Rows(doc.tables))| ==> NameOf(Cells(Rows(doc.tables))[j]) == ""
    ensures (forall i :: 0 <= i < |doc.paragraphs| ==> PrintNameGiven(doc.paragraphs[i]).None?) ==> ReportName(doc) == ""
    ensures forall i :: 0 <= i < |doc.paragraphs| && PrintNameGiven(doc.paragraphs[i]).Some?
                        && (forall j :: i < j < |doc.paragraphs| ==> PrintNameGiven(doc.paragraphs[j]).None?) ==>
              ReportName(doc) == PrintNameGiven(doc.paragraphs[i]).value
  {
    FirstNonEmptyMeaning(Cells(Rows(doc.tables)), NameOf);
    LastGivenAt("", doc.paragraphs, PrintNameGiven);
  }

  /** After the label, a colon and two spaces: the optional colon is taken and the whitespace
      run gives back one space for `(.+)`. */
  lemma ColonTwoSpacesCapture()
    ensures CaptureAfterKey(":  ", MarkThenSpaces) == Some(" ")
  {
    var t := ":  ";
    assert t[1..] == "  ";
    assert SpaceRun(t[1..]) == 2;
    assert CaptureStart(t[1..], 2) == Some(1);
    assert t[1..][1..] == " ";
    assert LineHead(" ") == " ";
  }

  /** A label followed by two spaces matches with a blank value: the capture is one space, and
      stripping leaves nothing. */
  lemma BlankPrintName()
    ensures PrintNameGiven("Print Name:  ") == Some("")
  {
    var p := "Print Name:  ";
    var key := "Print Name";
    assert OccursAt(p, key, 0);
    ContainsAt(p, key);
    assert p[|key|..] == ":  ";
    ColonTwoSpacesCapture();
    assert KeyAt(p, key, 0);
    assert MatchStart(p, key, MarkThenSpaces, 0) == Some(0);
    assert Strip(" ") == "";
  }

  /** So a later "Print Name" paragraph with nothing after the label erases the name an earlier
      one gave, when no cell names the report. */
  lemma BlankPrintNameErases(doc: Document, i: nat)
    requires forall j :: 0 <= j < |Cells(Rows(doc.tables))| ==> NameOf(Cells(Rows(doc.tables))[j]) == ""
    requires i < |doc.paragraphs| && doc.paragraphs[i] == "Print Name:  "
    requires forall j :: i < j < |doc.paragraphs| ==> PrintNameGiven(doc.paragraphs[j]).None?
    ensures ReportName(doc) == ""
  {
    BlankPrintName();
    PrintNameFallback(doc);
  }

  /** A dated row whose hour cell is a placeholder adds its date to the range but no record:
      the records are those of the other rows. */
  lemma PlaceholderRowKeepsDate(rows: seq<Row>, k: nat)
    requires k < |rows| && RowDate(rows[k]).Some? && Strip(rows[k].cells[4]) in HourPlaceholders
    ensures RowDate(rows[k]).value in RowDates(rows)
    ensures Collect(rows, RowShift) == Collect(rows[..k] + rows[k + 1..], RowShift)
  {
    CollectSkip(rows, k, RowShift);
  }

  /** An em dash is not among the placeholders, but it holds no digit, so the row still gives
      no record. */
  lemma EmDashGivesNoRecord(r: Row)
    requires |r.cells| >= 5 && Strip(r.cells[4]) == "\U{2014}"
    ensures Strip(r.cells[4]) !in HourPlaceholders
    ensures RowShift(r) == None
  {
    NoDigitNoNumber(Strip(r.cells[4]));
  }

  /** Every record comes from a dated row, so there are never more records than dates. */
  lemma RecordsHaveDates(rows: seq<Row>)
    ensures |Collect(rows, RowShift)| <= |RowDates(rows)|
  {
    CollectFewer(rows, RowShift, RowDate);
  }

  /** A written date in the first of at least five cells dates the row. */
  lemma FormattedDateCell(d: Date, cells: seq<string>)
    requires Valid(d) && |cells| >= 5 && cells[0] == Format(d)
    ensures RowDate(Row(cells)) == Some(d)
  {
    var f := Format(d);
    ParseFormatted(d);
    assert |f| == 10 && !IsSpace(f[0]) && !IsSpace(f[9]) by {
      assert HasDatePrefix(f);
    }
    StripKeepsTrimmed(f);
  }

  /** A whole number written out is not a placeholder and reads back as itself. */
  lemma WholeHoursCell(hours: nat)
    ensures Strip(NatText(hours)) == NatText(hours)
    ensures NatText(hours) !in HourPlaceholders
    ensures ParseDecimal(NatText(hours)) == Some(hours as real)
  {
    var h := NatText(hours);
    assert IsDigit(h[0]) && IsDigit(h[|h| - 1]);
    StripKeepsTrimmed(h);
    ParseNatText(hours);
  }

  /** A row written from a valid date, a trimmed weekday text and a whole number of hours gives
      that date and that record back. */
  lemma RowOfShift(d: Date, day: string, c2: string, c3: string, hours: nat, rest: seq<string>)
    requires Valid(d)
    requires |day| > 0 ==> !IsSpace(day[0]) && !IsSpace(day[|day| - 1])
    ensures RowDate(Row([Format(d), day, c2, c3, NatText(hours)] + rest)) == Some(d)
    ensures RowShift(Row([Format(d), day, c2, c3, NatText(hours)] + rest)) == Some(Shift(day, hours as real))
  {
    var cells := [Format(d), day, c2, c3, NatText(hours)] + rest;
    assert cells[0] == Format(d) && cells[1] == day && cells[4] == NatText(hours);
    FormattedDateCell(d, cells);
    WholeHoursCell(hours);
    StripKeepsTrimmed(day);
  }
}

=== FILE: streamlined_pay.dfy ===
/** The pay rules of the streamlined processor: four buckets of hours (regular, Saturday, Sunday
    and over 50), each priced on its own with the fixed `OT_RULES` factors. */
module StreamlinedRules {
  import opened Shifts

  /** `OT_RULES` and the fixed weekly limit. */
  const SaturdayFactor: real := 1.5
  const SundayFactor: real := 1.75
  const Over50Factor: real := 1.5
  const WeeklyLimit: real := 50.0

  /** One record's hours if its weekday text is "Saturday" or "Sunday", else nothing. */
  function WeekendPart(x: Shift): real {
    if x.weekday in [Saturday, Sunday] then x.hours else 0.0
  }

  /** `sum(d['hours'] for d in daily_data if d['weekday'] in ["Saturday", "Sunday"])`. */
  function WeekendHours(s: seq<Shift>): real {
    if |s| == 0 then 0.0 else WeekendHours(s[..|s| - 1]) + WeekendPart(s[|s| - 1])
  }

  /** The weekend sum is the Saturday sum plus the Sunday sum. */
  lemma {:induction false} WeekendSplit(s: seq<Shift>)
    ensures WeekendHours(s) == HoursOn(s, Saturday) + HoursOn(s, Sunday)
  {
    if |s| > 0 {
      WeekendSplit(s[..|s| - 1]);
      assert Saturday[1] != Sunday[1];
    }
  }

  /** `max(total_hours - 50, 0)`. */
  function Over50(total: real): real {
    if total - WeeklyLimit >= 0.0 then total - WeeklyLimit else 0.0
  }

  /** The hour figures of the streamlined report, unrounded, with the two intermediate buckets. */
  datatype Buckets = Buckets(total: real, weekend: real, over50: real, regular: real, saturday: real, sunday: real)

  /** Lines 72-77: the hour buckets. The weekend bucket is the Saturday bucket plus the Sunday
      bucket, the four buckets add up to the total, and the regular bucket is the weekday hours
      less the over-50 hours. */
  function ComputeBuckets(s: seq<Shift>): (b: Buckets)
    ensures b.total == TotalHours(s)
    ensures b.saturday == HoursOn(s, Saturday) && b.sunday == HoursOn(s, Sunday)
    ensures b.weekend == b.saturday + b.sunday
    ensures b.regular + b.weekend + b.over50 == b.total
    ensures b.regular == WeekdayHours(s) - b.over50
  {
    var total := TotalHours(s);
    var weekend := WeekendHours(s);
    var over50 := Over50(total);
    WeekendSplit(s);
    HoursSplit(s);
    Buckets(total, weekend, over50, total - weekend - over50, HoursOn(s, Saturday), HoursOn(s, Sunday))
  }

  /** The over-50 bucket is never negative, is empty exactly when the total is at most 50 and
      is the excess over 50 otherwise; the regular bucket is not clamped and goes negative
      exactly when the weekend and over-50 hours together exceed the total. */
  lemma BucketBounds(s: seq<Shift>)
    ensures var b := ComputeBuckets(s);
            && b.over50 >= 0.0
            && (b.over50 == 0.0 <==> b.total <= 50.0)
            && (b.total > 50.0 ==> b.over50 == b.total - 50.0)
            && (b.regular < 0.0 <==> b.weekend + b.over50 > b.total)
  {
  }

  /** Lines 78-82: each bucket priced at `rate` times its factor, the regular one at 1. */
  function Price(b: Buckets, rate: real): real {
    b.regular * rate + b.saturday * rate * SaturdayFactor + b.sunday * rate * SundayFactor
    + b.over50 * rate * Over50Factor
  }

  /** `total_pay` before rounding. */
  function StreamlinedPay(s: seq<Shift>, rate: real): real {
    Price(ComputeBuckets(s), rate)
  }

  lemma PriceBuckets(b: Buckets, rate: real, w: real, sat: real, sun: real, e: real)
    requires b.regular == w - e && b.saturday == sat && b.sunday == sun && b.over50 == e
    ensures Price(b, rate) == rate * w + rate * 1.5 * sat + rate * 1.75 * sun + rate * 0.5 * e
  {
  }

  lemma PayAtMostFifty(s: seq<Shift>, rate: real)
    requires TotalHours(s) <= 50.0
    ensures StreamlinedPay(s, rate)
            == rate * WeekdayHours(s) + rate * 1.5 * HoursOn(s, Saturday) + rate * 1.75 * HoursOn(s, Sunday)
  {
    PriceBuckets(ComputeBuckets(s), rate, WeekdayHours(s), HoursOn(s, Saturday), HoursOn(s, Sunday), 0.0);
  }

  lemma PayAboveFifty(s: seq<Shift>, rate: real)
    requires TotalHours(s) > 50.0
    ensures StreamlinedPay(s, rate)
            == rate * WeekdayHours(s) + rate * 1.5 * HoursOn(s, Saturday) + rate * 1.75 * HoursOn(s, Sunday)
               + rate * 0.5 * (TotalHours(s) - 50.0)
  {
    PriceBuckets(ComputeBuckets(s), rate, WeekdayHours(s), HoursOn(s, Saturday), HoursOn(s, Sunday),
                 TotalHours(s) - 50.0);
  }

  /** The streamlined pay, regrouped: weekday hours at the base rate, Saturday hours at 1.5,
      Sunday hours at 1.75, and, above 50 hours, half the base rate again on every extra hour,
      whichever day it fell on. */
  lemma PayByBuckets(s: seq<Shift>, rate: real)
    ensures TotalHours(s) <= 50.0 ==>
              StreamlinedPay(s, rate)
              == rate * WeekdayHours(s) + rate * 1.5 * HoursOn(s, Saturday) + rate * 1.75 * HoursOn(s, Sunday)
    ensures TotalHours(s) > 50.0 ==>
              StreamlinedPay(s, rate)
              == rate * WeekdayHours(s) + rate * 1.5 * HoursOn(s, Saturday) + rate * 1.75 * HoursOn(s, Sunday)
                 + rate * 0.5 * (TotalHours(s) - 50.0)
  {
    if TotalHours(s) <= 50.0 {
      PayAtMostFifty(s, rate);
    } else {
      PayAboveFifty(s, rate);
    }
  }

  /** Lines 72-82 on the records Monday 8, Tuesday 8, Saturday 10 and Sunday 6 at 15.0 an hour:
      32 hours, none above 50, and 240 + 225 + 157.5 = 622.5. */
  lemma WorkedExample()
    ensures var s := [Shift("Monday", 8.0), Shift("Tuesday", 8.0), Shift(Saturday, 10.0), Shift(Sunday, 6.0)];
            var b := ComputeBuckets(s);
            b.total == 32.0 && b.over50 == 0.0 && b.saturday == 10.0 && b.sunday == 6.0
            && StreamlinedPay(s, 15.0) == 622.5
  {
    var s := [Shift("Monday", 8.0), Shift("Tuesday", 8.0), Shift(Saturday, 10.0), Shift(Sunday, 6.0)];
    assert s[..3] == [Shift("Monday", 8.0), Shift("Tuesday", 8.0), Shift(Saturday, 10.0)];
    assert s[..3][..2] == [Shift("Monday", 8.0), Shift("Tuesday", 8.0)];
    assert s[..3][..2][..1] == [Shift("Monday", 8.0)];
    assert "Monday"[0] != Saturday[0] && "Monday"[0] != Sunday[0];
    assert "Tuesday"[0] != Saturday[0] && "Tuesday"[0] != Sunday[0];
    assert Saturday[1] != Sunday[1];
    var s1, s2, s3 := s[..3][..2][..1], s[..3][..2], s[..3];
    assert TotalHours(s1) == 8.0 && HoursOn(s1, Saturday) == 0.0 && HoursOn(s1, Sunday) == 0.0 && WeekendHours(s1) == 0.0;
    assert TotalHours(s2) == 16.0 && HoursOn(s2, Saturday) == 0.0 && HoursOn(s2, Sunday) == 0.0 && WeekendHours(s2) == 0.0;
    assert TotalHours(s3) == 26.0 && HoursOn(s3, Saturday) == 10.0 && HoursOn(s3, Sunday) == 0.0 && WeekendHours(s3) == 10.0;
    assert TotalHours(s) == 32.0 && HoursOn(s, Saturday) == 10.0 && HoursOn(s, Sunday) == 6.0 && WeekendHours(s) == 16.0;
  }
}

=== FILE: text.dfy ===
/** The string rules the timesheet extractors rely on: Python's whitespace set (shared by
    `str.strip()`, `str.split()` and the `\s` class of a `str` pattern), substring tests,
    ASCII case mapping, `str.title()`, `str.split()` word counting, line splitting, and the
    label patterns `Key<skip>(.+)` searched with `re.IGNORECASE`. */
module Text {
  import opened Options

  // ---------------------------------------------------------------------------
  // Character classes
  // ---------------------------------------------------------------------------

  /** Python's whitespace: the characters `str.isspace()` accepts. */
  predicate IsSpace(c: char) {
    var n := c as int;
    || 0x09 <= n <= 0x0D
    || 0x1C <= n <= 0x20
    || n == 0x85 || n == 0xA0 || n == 0x1680
    || 0x2000 <= n <= 0x200A
    || n == 0x2028 || n == 0x2029 || n == 0x202F || n == 0x205F || n == 0x3000
  }

  /** The line boundaries of `str.splitlines()`; every one of them is also whitespace. */
  predicate IsLineBreak(c: char) {
    var n := c as int;
    || 0x0A <= n <= 0x0D
    || 0x1C <= n <= 0x1E
    || n == 0x85 || n == 0x2028 || n == 0x2029
  }

  predicate IsUpperAscii(c: char) { 'A' <= c <= 'Z' }

  predicate IsLowerAscii(c: char) { 'a' <= c <= 'z' }

  predicate IsLetterAscii(c: char) { IsUpperAscii(c) || IsLowerAscii(c) }

  /** The skip class `[:\t\-\s]` of the appy1 label patterns (the tab is whitespace already). */
  predicate IsSeparator(c: char) { c == ':' || c == '-' || IsSpace(c) }

  function LowerChar(c: char): (r: char)
    ensures IsUpperAscii(c) ==> IsLowerAscii(r) && r as int == c as int + 32
    ensures !IsUpperAscii(c) ==> r == c
  {
    if IsUpperAscii(c) then (c as int + 32) as char else c
  }

  function UpperChar(c: char): (r: char)
    ensures IsLowerAscii(c) ==> IsUpperAscii(r) && r as int == c as int - 32
    ensures !IsLowerAscii(c) ==> r == c
  {
    if IsLowerAscii(c) then (c as int - 32) as char else c
  }

  /** `str.lower()` on the ASCII letters. */
  function Lower(s: string): (r: string)
    ensures |r| == |s|
    ensures forall i :: 0 <= i < |s| ==> r[i] == LowerChar(s[i])
  {
    if |s| == 0 then "" else [LowerChar(s[0])] + Lower(s[1..])
  }

  // ---------------------------------------------------------------------------
  // strip, substring tests
  // ---------------------------------------------------------------------------

  /** `str.lstrip()`: drops the leading whitespace and nothing else. */
  function TrimStart(s: string): (r: string)
    ensures |r| <= |s| && r == s[|s| - |r|..]
    ensures forall i :: 0 <= i < |s| - |r| ==> IsSpace(s[i])
    ensures |r| > 0 ==> !IsSpace(r[0])
  {
    if |s| > 0 && IsSpace(s[0]) then TrimStart(s[1..]) else s
  }

  /** `str.rstrip()`: drops the trailing whitespace and nothing else. */
  function TrimEnd(s: string): (r: string)
    ensures |r| <= |s| && r == s[..|r|]
    ensures forall i :: |r| <= i < |s| ==> IsSpace(s[i])
    ensures |r| > 0 ==> !IsSpace(r[|r| - 1])
  {
    if |s| > 0 && IsSpace(s[|s| - 1]) then TrimEnd(s[..|s| - 1]) else s
  }

  /** `r` is the piece of `s` starting at `i` with only whitespace around it. */
  predicate MiddleAt(s: string, r: string, i: nat) {
    && i + |r| <= |s| && r == s[i..i + |r|]
    && (forall k :: 0 <= k < i ==> IsSpace(s[k]))
    && (forall k :: i + |r| <= k < |s| ==> IsSpace(s[k]))
  }

  /** `str.strip()`: the contiguous middle of `s`, with only the whitespace at its ends removed. */
  function Strip(s: string): (r: string)
    ensures |r| <= |s|
    ensures |r| > 0 ==> !IsSpace(r[0]) && !IsSpace(r[|r| - 1])
    ensures r == "" <==> forall i :: 0 <= i < |s| ==> IsSpace(s[i])
    ensures exists i: nat :: MiddleAt(s, r, i)
  {
    var t := TrimStart(s);
    var r := TrimEnd(t);
    MiddleOfTrims(s, t, r);
    r
  }

  /** Dropping whitespace from the front of `s` and then from the back leaves a middle piece
      with no whitespace at its ends, empty exactly when `s` is all whitespace. */
  lemma MiddleOfTrims(s: string, t: string, r: string)
    requires |t| <= |s| && t == s[|s| - |t|..]
    requires forall k :: 0 <= k < |s| - |t| ==> IsSpace(s[k])
    requires |t| > 0 ==> !IsSpace(t[0])
    requires |r| <= |t| && r == t[..|r|]
    requires forall k :: |r| <= k < |t| ==> IsSpace(t[k])
    requires |r| > 0 ==> !IsSpace(r[|r| - 1])
    ensures |r| <= |s|
    ensures |r| > 0 ==> !IsSpace(r[0]) && !IsSpace(r[|r| - 1])
    ensures r == "" <==> forall i :: 0 <= i < |s| ==> IsSpace(s[i])
    ensures MiddleAt(s, r, |s| - |t|)
  {
    var i := |s| - |t|;
    assert forall k :: i + |r| <= k < |s| ==> s[k] == t[k - i];
    assert r == s[i..i + |r|];
    if |r| > 0 {
      assert r[0] == t[0];
    }
  }

  /** Stripping a string that has no whitespace at either end leaves it unchanged. */
  lemma StripKeepsTrimmed(s: string)
    requires |s| > 0 ==> !IsSpace(s[0]) && !IsSpace(s[|s| - 1])
    ensures Strip(s) == s
  {
  }

  /** `str.strip()` is idempotent. */
  lemma StripIdempotent(s: string)
    ensures Strip(Strip(s)) == Strip(s)
  {
    StripKeepsTrimmed(Strip(s));
  }

  predicate StartsWith(s: string, p: string) {
    |p| <= |s| && s[..|p|] == p
  }

  /** Python's `sub in s`. */
  predicate Contains(s: string, sub: string)
    decreases |s|
  {
    StartsWith(s, sub) || (|s| > 0 && Contains(s[1..], sub))
  }

  /** `sub` occurs in `s` starting at position `i`. */
  predicate OccursAt(s: string, sub: string, i: nat) {
    i + |sub| <= |s| && s[i..i + |sub|] == sub
  }

  /** `Contains` holds exactly when `sub` occurs at some position of `s`. */
  lemma {:induction false} ContainsAt(s: string, sub: string)
    ensures Contains(s, sub) <==> exists i: nat :: OccursAt(s, sub, i)
    decreases |s|
  {
    if StartsWith(s, sub) {
      assert OccursAt(s, sub, 0);
    }
    if |s| > 0 {
      ContainsAt(s[1..], sub);
      if Contains(s[1..], sub) {
        var i: nat :| OccursAt(s[1..], sub, i);
        assert s[1..][i..i + |sub|] == s[i + 1..i + 1 + |sub|];
        assert OccursAt(s, sub, i + 1);
      }
      if exists i: nat :: OccursAt(s, sub, i) {
        var i: nat :| OccursAt(s, sub, i);
        if i > 0 {
          assert s[1..][i - 1..i - 1 + |sub|] == s[i..i + |sub|];
          assert OccursAt(s[1..], sub, i - 1);
        }
      }
    } else if exists i: nat :: OccursAt(s, sub, i) {
      var i: nat :| OccursAt(s, sub, i);
      assert |sub| == 0;
    }
  }

  // ---------------------------------------------------------------------------
  // str.title(), str.split(), str.splitlines()
  // ---------------------------------------------------------------------------

  /** `r` is `s` title-cased, `afterLetter` telling whether a letter came just before `s`: the
      lengths agree, only the case of letters changes, and a letter is upper-case when the
      character before it is not a letter and lower-case otherwise. */
  predicate TitleCased(s: string, afterLetter: bool, r: string) {
    && |r| == |s|
    && (forall i :: 0 <= i < |s| && !IsLetterAscii(s[i]) ==> r[i] == s[i])
    && (forall i :: 0 <= i < |s| ==> LowerChar(r[i]) == LowerChar(s[i]))
    && (|s| > 0 && IsLetterAscii(s[0]) && !afterLetter ==> IsUpperAscii(r[0]))
    && (|s| > 0 && IsLetterAscii(s[0]) && afterLetter ==> IsLowerAscii(r[0]))
    && (forall i :: 0 < i < |s| && IsLetterAscii(s[i]) && !IsLetterAscii(s[i - 1]) ==> IsUpperAscii(r[i]))
    && (forall i :: 0 < i < |s| && IsLetterAscii(s[i]) && IsLetterAscii(s[i - 1]) ==> IsLowerAscii(r[i]))
  }

  /** The title case of one character, given whether a letter came just before it. */
  function TitleChar(c: char, afterLetter: bool): char {
    if !IsLetterAscii(c) then c else if afterLetter then LowerChar(c) else UpperChar(c)
  }

  /** `str.title()` on ASCII letters, from a position where `afterLetter` tells whether the
      character before was a letter. */
  function TitleFrom(s: string, afterLetter: bool): (r: string)
    ensures TitleCased(s, afterLetter, r)
  {
    if |s| == 0 then ""
    else
      var rest := TitleFrom(s[1..], IsLetterAscii(s[0]));
      TitleStep(s, afterLetter, rest);
      [TitleChar(s[0], afterLetter)] + rest
  }

  /** Title-casing the first character in front of a title-cased tail title-cases the whole. */
  lemma TitleStep(s: string, afterLetter: bool, rest: string)
    requires |s| > 0 && TitleCased(s[1..], IsLetterAscii(s[0]), rest)
    ensures TitleCased(s, afterLetter, [TitleChar(s[0], afterLetter)] + rest)
  {
    var r := [TitleChar(s[0], afterLetter)] + rest;
    assert forall i :: 0 < i < |s| ==> r[i] == rest[i - 1] && s[i] == s[1..][i - 1];
  }

  /** `str.title()`: only letter case changes, every word starts upper-case and continues
      lower-case. */
  function Title(s: string): (r: string)
    ensures |r| == |s|
    ensures forall i :: 0 <= i < |s| ==> LowerChar(r[i]) == LowerChar(s[i])
    ensures forall i :: 0 <= i < |s| && IsLetterAscii(s[i]) && (i == 0 || !IsLetterAscii(s[i - 1])) ==> IsUpperAscii(r[i])
    ensures forall i :: 0 < i < |s| && IsLetterAscii(s[i]) && IsLetterAscii(s[i - 1]) ==> IsLowerAscii(r[i])
  {
    TitleFrom(s, false)
  }

  /** Drops the leading run of non-whitespace characters (one word). */
  function DropWord(s: string): (r: string)
    ensures |r| <= |s| && r == s[|s| - |r|..]
    ensures forall k :: 0 <= k < |s| - |r| ==> !IsSpace(s[k])
    ensures |s| > 0 && !IsSpace(s[0]) ==> |r| < |s|
    ensures |r| > 0 ==> IsSpace(r[0])
  {
    if |s| > 0 && !IsSpace(s[0]) then
      var r := DropWord(s[1..]);
      DropStep(s, s[1..], r);
      r
    else s
  }

  lemma DropStep(s: string, t: string, r: string)
    requires |s| > 0 && !IsSpace(s[0]) && t == s[1..]
    requires |r| <= |t| && r == t[|t| - |r|..]
    requires forall k :: 0 <= k < |t| - |r| ==> !IsSpace(t[k])
    ensures |r| < |s| && r == s[|s| - |r|..]
    ensures forall k :: 0 <= k < |s| - |r| ==> !IsSpace(s[k])
  {
    forall k | 0 < k < |s| - |r|
      ensures !IsSpace(s[k])
    {
      assert s[k] == t[k - 1];
    }
  }

  /** Non-whitespace at `i` and `k` with whitespace at `j` between them. */
  predicate WordGapAt(s: string, i: int, j: int, k: int) {
    0 <= i < j < k < |s| && !IsSpace(s[i]) && IsSpace(s[j]) && !IsSpace(s[k])
  }

  /** `s` holds at least two words: two non-whitespace characters with whitespace between. */
  ghost predicate TwoWords(s: string) {
    exists i, j, k :: WordGapAt(s, i, j, k)
  }

  /** `len(s.split())`: the number of maximal runs of non-whitespace characters. */
  function WordCount(s: string): (n: nat)
    ensures n <= |s|
    ensures n == 0 <==> forall i :: 0 <= i < |s| ==> IsSpace(s[i])
    ensures n >= 2 <==> TwoWords(s)
    decreases |s|
  {
    if |s| == 0 then 0
    else if IsSpace(s[0]) then
      assert forall i :: 1 <= i < |s| ==> s[i] == s[1..][i - 1];
      TwoWordsAfterSpace(s);
      WordCount(s[1..])
    else
      var d := DropWord(s);
      var n := WordCount(d);
      TwoWordsAfterWord(s, d);
      1 + n
  }

  /** A leading whitespace character is never part of a word. */
  lemma TwoWordsAfterSpace(s: string)
    requires |s| > 0 && IsSpace(s[0])
    ensures TwoWords(s) <==> TwoWords(s[1..])
  {
    var t := s[1..];
    if TwoWords(s) {
      var i, j, k :| WordGapAt(s, i, j, k);
      assert WordGapAt(t, i - 1, j - 1, k - 1);
    }
    if TwoWords(t) {
      var i, j, k :| WordGapAt(t, i, j, k);
      assert WordGapAt(s, i + 1, j + 1, k + 1);
    }
  }

  /** After a leading word `s` holds a second one exactly when the rest `d` is not blank. */
  lemma TwoWordsAfterWord(s: string, d: string)
    requires |s| > 0 && !IsSpace(s[0])
    requires |d| < |s| && d == s[|s| - |d|..]
    requires forall k :: 0 <= k < |s| - |d| ==> !IsSpace(s[k])
    requires |d| > 0 ==> IsSpace(d[0])
    ensures TwoWords(s) <==> exists p :: 0 <= p < |d| && !IsSpace(d[p])
  {
    var m := |s| - |d|;
    if TwoWords(s) {
      var i, j, k :| WordGapAt(s, i, j, k);
      assert !IsSpace(d[k - m]);
    }
    if p :| 0 <= p < |d| && !IsSpace(d[p]) {
      assert WordGapAt(s, 0, m, m + p);
    }
  }

  /** Length of the leading run of characters that are not line boundaries. */
  function LineLength(s: string): (n: nat)
    ensures n <= |s|
    ensures forall i :: 0 <= i < n ==> !IsLineBreak(s[i])
    ensures n < |s| ==> IsLineBreak(s[n])
  {
    if |s| == 0 || IsLineBreak(s[0]) then 0 else 1 + LineLength(s[1..])
  }

  /** The line boundary characters of `s`, in order. */
  function LineBreaks(s: string): (b: string)
    ensures forall k :: 0 <= k < |b| ==> IsLineBreak(b[k])
  {
    if |s| == 0 then []
    else if IsLineBreak(s[0]) then [s[0]] + LineBreaks(s[1..])
    else LineBreaks(s[1..])
  }

  /** The lines joined back together, with `breaks[k]` between line `k` and line `k + 1`. */
  function JoinLines(lines: seq<string>, breaks: string): string
    requires |lines| == |breaks| + 1
  {
    if |breaks| == 0 then lines[0]
    else lines[0] + [breaks[0]] + JoinLines(lines[1..], breaks[1..])
  }

  /** `str.splitlines()`, except that every boundary character ends a line on its own (so
      `\r\n` and a final boundary leave an extra empty line). The lines hold no boundary, and
      joining them with the boundaries of `s` in order gives `s` back. */
  function SplitLines(s: string): (lines: seq<string>)
    ensures |lines| > 0
    ensures forall l :: l in lines ==> forall i :: 0 <= i < |l| ==> !IsLineBreak(l[i])
    ensures |lines| == |LineBreaks(s)| + 1 && JoinLines(lines, LineBreaks(s)) == s
    decreases |s|
  {
    var n := LineLength(s);
    if n == |s| then
      NoLineBreaks(s, n);
      [s]
    else
      var rest := SplitLines(s[n + 1..]);
      LineBreaksAfterLine(s, n);
      JoinStep(s, n, rest, LineBreaks(s[n + 1..]), [s[..n]] + rest);
      [s[..n]] + rest
  }

  lemma JoinStep(s: string, n: nat, rest: seq<string>, b: string, lines: seq<string>)
    requires n < |s| && forall i :: 0 <= i < n ==> !IsLineBreak(s[i])
    requires forall l :: l in rest ==> forall i :: 0 <= i < |l| ==> !IsLineBreak(l[i])
    requires |rest| == |b| + 1 && JoinLines(rest, b) == s[n + 1..]
    requires lines == [s[..n]] + rest
    ensures forall l :: l in lines ==> forall i :: 0 <= i < |l| ==> !IsLineBreak(l[i])
    ensures |lines| == |[s[n]] + b| + 1 && JoinLines(lines, [s[n]] + b) == s
  {
    assert lines[1..] == rest;
    assert ([s[n]] + b)[1..] == b;
    assert s == s[..n] + [s[n]] + s[n + 1..];
  }

  lemma {:induction false} NoLineBreaks(s: string, n: nat)
    requires n == |s|
    requires forall i :: 0 <= i < n ==> !IsLineBreak(s[i])
    ensures LineBreaks(s) == []
    decreases n
  {
    if n > 0 {
      NoLineBreaks(s[1..], n - 1);
    }
  }

  lemma {:induction false} LineBreaksAfterLine(s: string, n: nat)
    requires n < |s| && IsLineBreak(s[n])
    requires forall i :: 0 <= i < n ==> !IsLineBreak(s[i])
    ensures LineBreaks(s) == [s[n]] + LineBreaks(s[n + 1..])
    decreases n
  {
    if n > 0 {
      LineBreaksAfterLine(s[1..], n - 1);
      assert s[1..][n..] == s[n + 1..];
    }
  }

  // ---------------------------------------------------------------------------
  // Label patterns: re.search(r"Key<skip>(.+)", text, re.IGNORECASE)
  // ---------------------------------------------------------------------------

  /** The two skips that follow a key in the extractors' label patterns. */
  datatype Skip =
    | SeparatorRun   // `\s*[:\t\-\s]*` or `[:\-\s]*`: any run of separators
    | MarkThenSpaces // `[:\-]?\s*`: at most one colon or hyphen, then whitespace

  predicate HasNonNewline(t: string) {
    exists j :: 0 <= j < |t| && t[j] != '\n'
  }

  /** Length of the leading run of whitespace. */
  function SpaceRun(t: string): (n: nat)
    ensures n <= |t|
    ensures forall k :: 0 <= k < n ==> IsSpace(t[k])
    ensures n < |t| ==> !IsSpace(t[n])
  {
    if |t| == 0 || !IsSpace(t[0]) then 0 else 1 + SpaceRun(t[1..])
  }

  /** Length of the leading run of separators. */
  function SeparatorRunLength(t: string): (n: nat)
    ensures n <= |t|
    ensures forall k :: 0 <= k < n ==> IsSeparator(t[k])
    ensures n < |t| ==> !IsSeparator(t[n])
  {
    if |t| == 0 || !IsSeparator(t[0]) then 0 else 1 + SeparatorRunLength(t[1..])
  }

  /** The prefix of `s` before its first `\n`: what a greedy `.+` consumes. */
  function LineHead(s: string): (r: string)
    ensures |r| <= |s| && r == s[..|r|]
    ensures forall k :: 0 <= k < |r| ==> r[k] != '\n'
    ensures |r| < |s| ==> s[|r|] == '\n'
  {
    if |s| == 0 || s[0] == '\n' then "" else [s[0]] + LineHead(s[1..])
  }

  /** Where `(.+)` starts after a greedy skip of length `k` that backtracks: the largest
      position `j <= k` holding a character other than `\n`. */
  function CaptureStart(t: string, k: nat): (r: Option<nat>)
    requires k <= |t|
    ensures r.Some? ==> r.value <= k && r.value < |t| && t[r.value] != '\n'
    ensures r.Some? ==> forall j :: r.value < j <= k && j < |t| ==> t[j] == '\n'
    ensures r.None? <==> forall j :: 0 <= j <= k && j < |t| ==> t[j] == '\n'
    decreases k
  {
    if k < |t| && t[k] != '\n' then Some(k)
    else if k == 0 then None
    else CaptureStart(t, k - 1)
  }

  /** The group captured by `(.+)` when the skip before it has at most `k` characters. */
  function CaptureFrom(t: string, k: nat): (r: Option<string>)
    requires k <= |t|
  {
    match CaptureStart(t, k)
    case Some(j) => Some(LineHead(t[j..]))
    case None => None
  }

  /** The group `<skip>(.+)` captures at the start of `t`, the text after a key. A capture
      exists exactly when `t` holds a character other than `\n`; it is never empty and lies
      within one line. */
  function CaptureAfterKey(t: string, skip: Skip): (r: Option<string>)
    ensures r.Some? <==> HasNonNewline(t)
    ensures r.Some? ==> |r.value| > 0 && forall k :: 0 <= k < |r.value| ==> r.value[k] != '\n'
  {
    match skip
    case SeparatorRun =>
      var n := SeparatorRunLength(t);
      assert n < |t| ==> t[n] != '\n';
      CaptureFrom(t, n)
    case MarkThenSpaces =>
      if |t| > 0 && (t[0] == ':' || t[0] == '-') then
        var c := CaptureFrom(t[1..], SpaceRun(t[1..]));
        if c.Some? then c else CaptureFrom(t, 0)
      else
        var n := SpaceRun(t);
        assert n < |t| ==> t[n] != '\n';
        CaptureFrom(t, n)
  }

  /** `sep` is a run the skip consumes whole: separators for `SeparatorRun`; for
      `MarkThenSpaces` whitespace, led by at most one colon or hyphen. */
  predicate SkipAccepts(skip: Skip, sep: string) {
    match skip
    case SeparatorRun => forall k :: 0 <= k < |sep| ==> IsSeparator(sep[k])
    case MarkThenSpaces => forall k :: 0 <= k < |sep| ==> IsSpace(sep[k]) || (k == 0 && (sep[k] == ':' || sep[k] == '-'))
  }

  /** The skip cannot go on past `sep` into a text starting with `c`. */
  predicate SkipStopsAt(skip: Skip, sep: string, c: char) {
    match skip
    case SeparatorRun => !IsSeparator(c)
    case MarkThenSpaces => !IsSpace(c) && (sep == [] ==> c != ':' && c != '-')
  }

  /** Which text `<skip>(.+)` captures: after a run the skip consumes whole, up to the end of
      the line. For `t == sep + v + rest`, with `v` one line that the skip cannot enter and
      `rest` empty or starting a new line, the group is exactly `v`. */
  lemma CaptureValue(sep: string, v: string, rest: string, skip: Skip)
    requires SkipAccepts(skip, sep)
    requires |v| > 0 && SkipStopsAt(skip, sep, v[0])
    requires forall k :: 0 <= k < |v| ==> v[k] != '\n'
    requires rest == [] || rest[0] == '\n'
    ensures CaptureAfterKey(sep + v + rest, skip) == Some(v)
  {
    var t := sep + v + rest;
    assert t == sep + (v + rest);
    match skip
    case SeparatorRun =>
      SeparatorRunOf(sep, v + rest);
      CaptureAt(t, |sep|, v, rest);
      SeparatorsThenLine(t, |sep|, v);
    case MarkThenSpaces =>
      if |sep| > 0 && (sep[0] == ':' || sep[0] == '-') {
        assert t[1..] == sep[1..] + (v + rest);
        SpaceRunOf(sep[1..], v + rest);
        CaptureAt(t[1..], |sep| - 1, v, rest);
        MarkThenLine(t, |sep| - 1, v);
      } else {
        SpaceRunOf(sep, v + rest);
        CaptureAt(t, |sep|, v, rest);
        SpacesThenLine(t, |sep|, v);
      }
  }

  lemma SeparatorsThenLine(t: string, n: nat, v: string)
    requires n == SeparatorRunLength(t) && CaptureFrom(t, n) == Some(v)
    ensures CaptureAfterKey(t, SeparatorRun) == Some(v)
  {
  }

  lemma MarkThenLine(t: string, n: nat, v: string)
    requires |t| > 0 && (t[0] == ':' || t[0] == '-')
    requires n == SpaceRun(t[1..]) && CaptureFrom(t[1..], n) == Some(v)
    ensures CaptureAfterKey(t, MarkThenSpaces) == Some(v)
  {
  }

  lemma SpacesThenLine(t: string, n: nat, v: string)
    requires !(|t| > 0 && (t[0] == ':' || t[0] == '-'))
    requires n == SpaceRun(t) && CaptureFrom(t, n) == Some(v)
    ensures CaptureAfterKey(t, MarkThenSpaces) == Some(v)
  {
  }

  /** When the skip ends at `n` and a line `v` starts there, `(.+)` captures `v`. */
  lemma CaptureAt(t: string, n: nat, v: string, rest: string)
    requires n <= |t| && t[n..] == v + rest
    requires |v| > 0 && forall k :: 0 <= k < |v| ==> v[k] != '\n'
    requires rest == [] || rest[0] == '\n'
    ensures CaptureFrom(t, n) == Some(v)
  {
    assert t[n] == v[0];
    assert CaptureStart(t, n) == Some(n);
    LineHeadOf(v, rest);
  }

  lemma {:induction false} SpaceRunOf(sp: string, value: string)
    requires forall k :: 0 <= k < |sp| ==> IsSpace(sp[k])
    requires |value| > 0 && !IsSpace(value[0])
    ensures SpaceRun(sp + value) == |sp|
    decreases |sp|
  {
    if |sp| > 0 {
      assert (sp + value)[1..] == sp[1..] + value;
      SpaceRunOf(sp[1..], value);
    } else {
      assert sp + value == value;
    }
  }

  lemma {:induction false} LineHeadOf(v: string, rest: string)
    requires forall k :: 0 <= k < |v| ==> v[k] != '\n'
    requires rest == [] || rest[0] == '\n'
    ensures LineHead(v + rest) == v
    decreases |v|
  {
    if |v| > 0 {
      assert (v + rest)[1..] == v[1..] + rest;
      LineHeadOf(v[1..], rest);
    } else {
      assert v + rest == rest;
    }
  }

  /** `key` occurs at position `i`, ignoring the case of ASCII letters. */
  predicate KeyAt(text: string, key: string, i: nat) {
    i + |key| <= |text| && forall j :: 0 <= j < |key| ==> LowerChar(text[i + j]) == LowerChar(key[j])
  }

  /** The whole pattern matches when started at position `i`. */
  predicate MatchesAt(text: string, key: string, skip: Skip, i: nat) {
    KeyAt(text, key, i) && CaptureAfterKey(text[i + |key|..], skip).Some?
  }

  /** The leftmost start position at or after `i` where the pattern matches. */
  function MatchStart(text: string, key: string, skip: Skip, i: nat): (r: Option<nat>)
    requires i <= |text|
    ensures r.Some? ==> i <= r.value && MatchesAt(text, key, skip, r.value)
    ensures forall j :: i <= j && (r.Some? ==> j < r.value) ==> !MatchesAt(text, key, skip, j)
    decreases |text| - i
  {
    if i + |key| > |text| then
      assert forall j :: i <= j ==> !KeyAt(text, key, j);
      None
    else if MatchesAt(text, key, skip, i) then Some(i)
    else if i == |text| then
      assert forall j :: i < j ==> !KeyAt(text, key, j);
      None
    else MatchStart(text, key, skip, i + 1)
  }

  /** `re.search(key + skip + "(.+)", text, re.IGNORECASE)` reduced to its group 1: the
      capture at the leftmost position where the whole pattern matches. */
  function Search(text: string, key: string, skip: Skip): (r: Option<string>)
    ensures r.Some? <==> exists i: nat :: MatchesAt(text, key, skip, i)
    ensures r.Some? ==> |r.value| > 0
  {
    var m := MatchStart(text, key, skip, 0);
    match m
    case Some(i) => CaptureAfterKey(text[i + |key|..], skip)
    case None => None
  }

  /** `m.group(1).strip()` when the pattern matches, and "" when it does not. */
  function Captured(text: string, key: string, skip: Skip): (r: string)
    ensures r != "" ==> Search(text, key, skip).Some?
  {
    match Search(text, key, skip)
    case Some(v) => Strip(v)
    case None => ""
  }

  /** A labelled field: looked for only when `key` occurs in the text as written, then read
      with the case-insensitive label pattern. */
  function Labelled(text: string, key: string, skip: Skip): (r: string)
    ensures r != "" ==> Contains(text, key)
  {
    if Contains(text, key) then Captured(text, key, skip) else ""
  }

  /** A label line yields its value: when the text starts with the key (in any ASCII case),
      then a run `sep` the skip consumes whole, then a one-line `value` whose first character
      the skip cannot take, the search returns exactly `value`. */
  lemma LabelValue(text: string, key: string, skip: Skip, sep: string, value: string)
    requires KeyAt(text, key, 0) && text[|key|..] == sep + value
    requires SkipAccepts(skip, sep)
    requires |value| > 0 && SkipStopsAt(skip, sep, value[0])
    requires forall k :: 0 <= k < |value| ==> value[k] != '\n'
    ensures Search(text, key, skip) == Some(value)
  {
    CaptureValue(sep, value, "", skip);
    assert sep + value + "" == text[|key|..];
    assert MatchesAt(text, key, skip, 0);
  }

  lemma {:induction false} SeparatorRunOf(sep: string, value: string)
    requires forall k :: 0 <= k < |sep| ==> IsSeparator(sep[k])
    requires |value| > 0 && !IsSeparator(value[0])
    ensures SeparatorRunLength(sep + value) == |sep|
    decreases |sep|
  {
    if |sep| > 0 {
      assert (sep + value)[1..] == sep[1..] + value;
      SeparatorRunOf(sep[1..], value);
    } else {
      assert sep + value == value;
    }
  }

  lemma LineHeadOfLine(s: string)
    requires forall k :: 0 <= k < |s| ==> s[k] != '\n'
    ensures LineHead(s) == s
  {
  }

  // ---------------------------------------------------------------------------
  // The upper-case name heuristic
  // ---------------------------------------------------------------------------

  /** `re.fullmatch(r"[A-Z\s]{5,}", s)`. */
  predicate IsUpperBlock(s: string) {
    |s| >= 5 && forall i :: 0 <= i < |s| ==> IsUpperAscii(s[i]) || IsSpace(s[i])
  }
}
